=== FILE: README.md ===
# Alert handling of the NeuroScan dashboard, in Dafny

This project models the alert-handling core of a threat-monitoring web
application. The core has a Python server and a React front end.

- **Server** (`backend/app.py`):
  - keeps an in-memory alert store, newest first;
  - keeps a bounded history of 1000 entries;
  - answers the filtered, paginated alert query and the legacy first-hundred
    view;
  - computes the dashboard summary and its integer security score;
  - formats alerts for broadcast, filling in missing fields;
  - tracks WebSocket clients in a `ConnectionManager`.
- **Dashboard** (`EnhancedDashboard.jsx`):
  - keeps the live alert list as an upsert keyed on `id`;
  - keeps summary counters, which it either recomputes or advances by a
    delta;
  - keeps per-threat-type counters and a sliding time-series window;
  - loads and refreshes from the server, falling back to local
    recomputation of the summary.
- **Alerts page** (`SimpleAlertsPage.jsx`): a reducer over
  `(alerts, isConnected, error, lastMessage)` driven by socket callbacks.
- **Sidebar** (`Sidebar.jsx`): the `isActive` path matcher over the four
  navigation entries.

Every handler is a pure function from state to state. Everything outside the
handler is a parameter:

- I/O and the clock;
- random draws;
- whether a handshake or a send succeeds;
- whether an awaited call returns or throws, modelled by `Fetch<T>`.

Modules:

| module | file | models |
|---|---|---|
| `Basics` | basics.dfy | options, awaited results, counting, filtering, subsequences, map counters, windows |
| `ClientAlert` | client_alert.dfy | an alert as the browser sees it, JavaScript id truthiness |
| `SummaryAggregator` | summary_aggregator.dfy | dashboard counters: recompute and delta |
| `Dashboard` | dashboard.dfy | dashboard handlers |
| `AlertsPage` | alerts_page.dfy | alerts-page reducer |
| `Sidebar` | sidebar.dfy | active navigation entry |
| `BackendAlerts` | backend_alerts.dfy | server alert records, query, history, broadcast formatting |
| `ServerSummary` | server_summary.dfy | server dashboard summary and security score |
| `ConnectionManager` | connection_manager.dfy | WebSocket client bookkeeping |
| `Endpoints` | endpoints.dfy | the endpoints that store and broadcast alerts |

Behaviours of the code that the model keeps as they are:

- A live alert whose id is already listed is replaced where it stands. It is
  not moved to the front.
- The summary delta is applied even when the id was already listed.
- In the dashboard, every status other than `"resolved"` counts as open. On
  the server, only the exact status `"open"` does.
- `Refresh` itself does not read `isLoading`. The guard against a second
  refresh while one is running is the Refresh button's `disabled={isLoading}`
  (EnhancedDashboard.jsx:576-577), which is rendering and not modelled.

## Model

| member | source | states |
|---|---|---|
| SummaryAggregator.Recompute | frontend/src/components/EnhancedDashboard.jsx:289-317 | the total is the list length; open and resolved split it exactly, because every alert whose status is not exactly "resolved" counts as open |
| SummaryAggregator.SeverityCoverage | frontend/src/components/EnhancedDashboard.jsx:307-313 | the four severity buckets add up to at most the total, and to exactly the total iff every alert's severity is critical, high, medium or low |
| SummaryAggregator.BucketsCountKnown | frontend/src/components/EnhancedDashboard.jsx:307-313 | the buckets together count the alerts with a recognised severity, each such alert once |
| SummaryAggregator.RecomputePrepend | frontend/src/components/EnhancedDashboard.jsx:289-317 | recomputing a list with one more alert in front adds that one alert's contribution |
| SummaryAggregator.ApplyDelta | frontend/src/components/EnhancedDashboard.jsx:320-344 | with isNew false the summary is unchanged; with isNew true it grows by exactly the alert's one-alert contribution |
| SummaryAggregator.DeltaCounts | frontend/src/components/EnhancedDashboard.jsx:320-344 | one new alert adds one to the total, one to the status buckets together, and one to the severity buckets iff its severity is recognised |
| SummaryAggregator.FoldIsPlusRecompute | frontend/src/components/EnhancedDashboard.jsx:289-344 | folding the deltas of a list onto any summary adds exactly the recomputed counters of that list |
| SummaryAggregator.FoldFromZeroIsRecompute | frontend/src/components/EnhancedDashboard.jsx:289-344 | from the zero summary, the incremental and the recomputing strategies give the same counters |
| Dashboard.InitialIsExact | frontend/src/components/EnhancedDashboard.jsx:35-76 | the mounted state has no repeated ids, counters equal to the recomputed ones and threat counters summing to zero |
| Dashboard.ReplaceById | frontend/src/components/EnhancedDashboard.jsx:224 | same length and same ids at every index; entries with the alert's id become the alert, all others are untouched |
| Dashboard.Upsert | frontend/src/components/EnhancedDashboard.jsx:220-228 | a listed id is replaced in place, an unlisted one is put in front, and afterwards the id is listed |
| Dashboard.UpsertKeepsIdsUnique | frontend/src/components/EnhancedDashboard.jsx:220-228 | a list without repeated ids still has none after the upsert |
| Dashboard.Shift | frontend/src/components/EnhancedDashboard.jsx:250-253 | an empty buffer becomes just the new sample; a buffer of n >= 1 samples keeps its length n, losing its oldest sample and ending in the new one (the last max(n,1) entries of old buffer + new sample) |
| Dashboard.ShiftWindow | frontend/src/components/EnhancedDashboard.jsx:248-262 | the timestamp, threat and anomaly buffers are each shifted, taking the time label, the constant 1 and the anomaly sample respectively; so a non-empty threat buffer keeps its length and ends in 1; the traffic buffers are untouched |
| Dashboard.Tick | frontend/src/components/EnhancedDashboard.jsx:275-277 | the timer shifts the window and changes nothing else: no alert, counter, flag, error or last-update time |
| Dashboard.CountThreatType | frontend/src/components/EnhancedDashboard.jsx:234-239 | a non-empty threat type gains one, starting at 1 if absent, and every other key is unchanged; an absent or empty type changes nothing |
| Dashboard.ThreatTypeTotalGrowsByOne | frontend/src/components/EnhancedDashboard.jsx:234-239 | the threat-type counters gain exactly one in total per accepted alert that names a type |
| Dashboard.HandleNewAlert | frontend/src/components/EnhancedDashboard.jsx:208-245 | a missing alert or a falsy id leaves the whole state unchanged; otherwise upsert, one delta, one type bump and one window shift happen together, the last-update time becomes the separate clock reading, and loading, connection and error are unchanged |
| Dashboard.KnownIdReplacedInPlace | frontend/src/components/EnhancedDashboard.jsx:221-224 | an alert whose id is listed replaces that entry at the same index; length and unrelated entries are unchanged |
| Dashboard.FreshIdPrepended | frontend/src/components/EnhancedDashboard.jsx:221-227 | an alert with an unseen id is put in front, followed by the old list in order |
| Dashboard.FreshIdKeepsSummaryExact | frontend/src/components/EnhancedDashboard.jsx:220-231 | counters that matched the list still match it after a fresh alert |
| Dashboard.RepeatedIdOvercounts | frontend/src/components/EnhancedDashboard.jsx:220-231 | a repeated id leaves the length alone but still raises the total, so the total exceeds the list length |
| Dashboard.DeliverKeepsIdsUnique | frontend/src/components/EnhancedDashboard.jsx:208-228 | over any stream of live alerts, each with its own time label, sample and clock reading, a list without repeated ids never gains one |
| Dashboard.ReconcileSummary | frontend/src/components/EnhancedDashboard.jsx:103-110 | a server summary that arrives is used verbatim; only when that call throws is the summary recomputed from the snapshot |
| Dashboard.LoadInitialData | frontend/src/components/EnhancedDashboard.jsx:92-125 | a failed alert fetch sets the "Failed to load data: " error and keeps the data; a successful one installs the snapshot, the reconciled summary and the generated counters and window; loading always ends |
| Dashboard.Refresh | frontend/src/components/EnhancedDashboard.jsx:347-368 | as the load path, with the "Failed to refresh: " error, and never touching the type counters or the window |
| Dashboard.RefreshThenFreshPush | frontend/src/components/EnhancedDashboard.jsx:347-368 | after a refresh whose summary call threw, a fresh live alert leaves the snapshot plus that alert with exact counters |
| Dashboard.ConnectionChange | frontend/src/components/EnhancedDashboard.jsx:202-205 | only the connection flag changes |
| AlertsPage.OnMessage | frontend/src/pages/SimpleAlertsPage.jsx:20-34 | the raw text is always recorded; an alert with data is prepended with the old list after it; an initial batch replaces the list; anything else leaves the list alone |
| AlertsPage.Step | frontend/src/pages/SimpleAlertsPage.jsx:14-51 | open connects and clears the error, close disconnects and keeps the error, error disconnects and sets the fixed message, a failed construction sets its fixed message; a message is handled exactly as `OnMessage` states; only messages touch lastMessage |
| AlertsPage.MountedConnectedIsLatest | frontend/src/pages/SimpleAlertsPage.jsx:4-45 | from the mounted page, the connection flag is what the latest open, close or error callback set, and false before any |
| AlertsPage.ClearAlerts | frontend/src/pages/SimpleAlertsPage.jsx:76-78 | the list becomes empty and nothing else changes |
| AlertsPage.RunConnectedIsLatest | frontend/src/pages/SimpleAlertsPage.jsx:14-45 | after any sequence of callbacks, the connection flag is what the latest open, close or error callback set |
| AlertsPage.AlertMessagesAccumulate | frontend/src/pages/SimpleAlertsPage.jsx:26-27 | n alert messages with data grow the list by n and keep the old list, in order, as its tail |
| AlertsPage.DuplicateAlertListedTwice | frontend/src/pages/SimpleAlertsPage.jsx:26-27 | the same alert delivered twice is listed twice; there is no deduplication |
| Sidebar.RootActiveOnlyAtRoot | frontend/src/components/Sidebar.jsx:29-31 | the root entry is active iff the location is exactly "/" |
| Sidebar.NonRootActiveIffPrefix | frontend/src/components/Sidebar.jsx:32 | a non-root entry is active iff the location agrees with its path on every character of the path |
| Sidebar.PrefixNotSegment | frontend/src/components/Sidebar.jsx:32 | matching is by characters, not segments: "/dashboard" is active at "/dashboardX" and at "/dashboard/alerts" |
| Sidebar.Divergence | frontend/src/components/Sidebar.jsx:21-26 | two different non-root navigation paths differ at an index both of them have |
| Sidebar.NavPathsPrefixFree | frontend/src/components/Sidebar.jsx:21-26 | no non-root navigation path is a prefix of another navigation path |
| Sidebar.AtMostOneActive | frontend/src/components/Sidebar.jsx:21-33 | no location makes two navigation entries active |
| Sidebar.ActiveItems | frontend/src/components/Sidebar.jsx:21-33 | the active entries of a location number at most one, and are exactly the entries isActive accepts |
| BackendAlerts.Format | backend/app.py:199-214 | formatting fails iff id, threat type, severity or timestamp is missing; those and the metrics are copied; status, device, description, method and confidence take their given value or the fixed default ("open", "unknown", "No description provided", "unknown", 0.0) |
| BackendAlerts.FormatStoredRoundTrip | backend/app.py:199-214 | formatting a stored record returns that record: no default is used on a record with every key |
| BackendAlerts.InsertNewest | backend/app.py:284 | the new alert comes first and every earlier alert moves back one place, unchanged |
| BackendAlerts.AppendOldest | backend/app.py:678 | the new alert comes last and every earlier alert keeps its index |
| BackendAlerts.HistoryAppend | backend/app.py:193 | the history is the last 1000 entries of old history plus the new alert; below the bound nothing is evicted, at the bound exactly the oldest is |
| BackendAlerts.FilterSeverity | backend/app.py:544-545 | with a non-empty severity only matching alerts remain; an absent or empty filter keeps everything |
| BackendAlerts.FilterStatus | backend/app.py:547-548 | with a non-empty status only matching alerts remain; an absent or empty filter keeps everything |
| BackendAlerts.FilterMethod | backend/app.py:550-551 | with a non-empty detection method only matching alerts remain; an absent or empty filter keeps everything |
| BackendAlerts.Page | backend/app.py:553 | the page has at most limit items, is empty past the end, and holds the items from offset on, in order |
| BackendAlerts.FilterTwice | backend/app.py:542-551 | two filters in turn keep exactly what passes both |
| BackendAlerts.FiltersCompose | backend/app.py:542-551 | the three optional filters in turn keep exactly the alerts that pass every given filter |
| BackendAlerts.PageOfMatches | backend/app.py:542-553 | a page cut from the alerts that pass every given filter holds only such alerts, in store order |
| BackendAlerts.GetAlerts | backend/app.py:533-553 | rejected iff limit is outside 1..1000 or offset is negative; otherwise a page of the matching alerts with at most limit items, each matching every given filter, in store order |
| BackendAlerts.GetAlertsLegacy | backend/app.py:555-558 | a prefix of the store of length min(n, 100) |
| BackendAlerts.LegacyIsDefaultQuery | backend/app.py:533-558 | the legacy view is the unfiltered query with limit 100 and offset 0 |
| ServerSummary.CountsNested | backend/app.py:589-591 | open-critical count <= open count <= total |
| ServerSummary.TallyBy | backend/app.py:593-603 | the counting loop keeps every key already present and ends with a counter for the key of every alert |
| ServerSummary.TallyAddsOnePerAlert | backend/app.py:593-603 | the counting loop adds exactly one to the counters' sum per alert |
| ServerSummary.TallyCountsKey | backend/app.py:593-603 | each counter grows by the number of alerts with that key, and a key is present iff it was before or some alert carries it |
| ServerSummary.TallyAccountsForEveryAlert | backend/app.py:593-603 | from an empty map, the counters add up to the number of alerts, each counter is the number of alerts with its key, and only carried keys appear |
| ServerSummary.SummaryTalliesSumToTotal | backend/app.py:593-603 | the detection-method and threat-type counts each add up to total_alerts |
| ServerSummary.WeightedSum | backend/app.py:606-612 | the weighted sum of the open alerts by severity; a store with no open alert weighs nothing |
| ServerSummary.WeightedSumIsPerAlert | backend/app.py:606-612 | the per-severity weighted count equals the sum over alerts of each open alert's severity weight |
| ServerSummary.Score | backend/app.py:613 | the score is 100 - 2w for a weighted sum w below 50 and 0 from 50 on; so it is in [0, 100], is 0 iff w >= 50 and is 100 iff w = 0 |
| ServerSummary.ScoreAntitone | backend/app.py:613 | a larger weighted sum never gives a higher score |
| ServerSummary.WeightOfOneMore | backend/app.py:606-612 | one more stored alert, first or last, adds exactly its own weight to the weighted sum |
| ServerSummary.AddingAlertNeverRaisesScore | backend/app.py:606-613 | storing one more alert never raises the score, and one that is not open or has no weighted severity leaves it unchanged |
| ServerSummary.Summarize | backend/app.py:586-629 | total is the store size; critical <= open <= total, counted with status exactly "open"; the score is `Score` of the per-alert weight of the open alerts, so it is in [0,100] and is 0 iff they weigh at least 50; the detection-method and threat-type tallies hold, under every key, the number of alerts with that key, and each adds up to the total; every module status is "active" iff the enhanced modules are available |
| ServerSummary.ReportedScoreNeverRises | backend/app.py:586-613 | the security score the summary endpoint reports never rises when an alert is stored first or last |
| ConnectionManager.EmptyValid | backend/app.py:108-116 | the fresh manager has matching maps and balanced counters |
| ConnectionManager.GetId | backend/app.py:123-124 | a requested id is kept even when it is the empty string; a uuid is used only when no id is given |
| ConnectionManager.Connect | backend/app.py:118-136 | a failed handshake only counts an error and yields no id; otherwise the requested or generated id maps to the socket and the time, and one connection is counted |
| ConnectionManager.ConnectPreservesValid | backend/app.py:118-136 | connecting keeps both maps on the same keys and the connection count at least the open clients plus the disconnections, even when an id is reused |
| ConnectionManager.Disconnect | backend/app.py:138-148 | an unknown id changes nothing; a known one leaves both maps and adds exactly one disconnection |
| ConnectionManager.DisconnectIdempotent | backend/app.py:138-142 | disconnecting twice is disconnecting once |
| ConnectionManager.DisconnectPreservesValid | backend/app.py:138-142 | disconnecting keeps the manager valid |
| ConnectionManager.ConnectThenDisconnect | backend/app.py:118-142 | connecting a new client and disconnecting it restores both maps and counts one connection and one disconnection |
| ConnectionManager.Failed | backend/app.py:154-160 | the failed clients are exactly the open clients whose send throws |
| ConnectionManager.BroadcastOutcome | backend/app.py:150-165 | after a broadcast exactly the failed clients leave both maps, surviving clients keep their sockets, one message, one error per failure and one disconnection per failure are counted, and the reported count is the open clients minus twice the failures |
| ConnectionManager.DisconnectEach | backend/app.py:162-163 | disconnecting failed clients one at a time, in any order, gives the all-at-once cleanup |
| ConnectionManager.Broadcast | backend/app.py:150-165 | the loop agrees with the all-at-once outcome, counts one message and counts one error per failed send |
| ConnectionManager.ReportSubtractsFailuresTwice | backend/app.py:165 | one open client whose send fails leaves no client and a report of -1 |
| ConnectionManager.BroadcastPreservesValid | backend/app.py:150-165 | broadcasting keeps the manager valid |
| Endpoints.StartValid | backend/app.py:167-193 | the server's start state (no alerts, empty history, fresh manager) satisfies the state invariant |
| Endpoints.BroadcastAlert | backend/app.py:197-228 | succeeds iff the record can be formatted; on failure nothing is sent and the manager is unchanged; on success the formatted record goes out |
| Endpoints.StoredAlertBroadcasts | backend/app.py:197-228 | a stored record always broadcasts, and exactly that record is sent |
| Endpoints.RecordDetected | backend/app.py:284-288 | a detected alert goes first in the store and last in the bounded history, then to every client |
| Endpoints.RecordDetectedPreservesValid | backend/app.py:284-288 | storing a detected alert keeps the history within 1000 entries and the manager valid |
| Endpoints.RecordDetectedNewestFirst | backend/app.py:284-285 | the stored alert is first, the earlier alerts follow it unchanged, and it is the newest history entry |
| Endpoints.DetectedAlertHeadsLegacyView | backend/app.py:555-558 | a detected alert is the first alert of the legacy view |
| Endpoints.TestAlert | backend/app.py:563-576 | the test record has the drawn id and clock time, threat type "Test Threat", severity medium, status open, device "test-device", the fixed description, method test, confidence 0.85 and the single test metric |
| Endpoints.CreateTestAlert | backend/app.py:560-584 | the store gains exactly the test record in front, earlier alerts move back unchanged, the test record is appended to the bounded history, and the manager ends as after broadcasting to the given failing clients |
| Endpoints.AppendTrained | backend/app.py:677-681 | a trained-model alert is appended last with no history entry and no broadcast, and the request fails |
| Endpoints.TrainedAlertInLegacyViewOnlyWhenFewAlerts | backend/app.py:555-558 | an appended alert shows in the legacy view only when fewer than 100 alerts were stored before it |
| Endpoints.InitialBatch | backend/app.py:773-777 | the greeting carries the first min(n, 50) stored alerts, in order |

## Left out

- Network and transport are not modelled: `fetch`, WebSocket construction, FastAPI routing, HTTP status codes, CORS and server start-up. Incoming events are datatypes, and whether an awaited call returns or throws is a parameter.
- Randomness and clocks are parameters:
  - the uuid drawn for ids;
  - the formatted time;
  - the random anomaly sample;
  - the random per-type counters and 24-hour buffers of `loadEnhancedStats` and `initializeRealTimeData`.
- The random `detectionStats` and `systemMetrics` state of the dashboard is not modelled, since no alert handler reads it.
- `AlertService` and `WebSocketService` are called but are not part of this model. `AlertService.addAlert` is a call whose effect is unknown.
- Subscribing handlers to the socket is not modelled.
- Interleaving of async callbacks is not modelled. Each handler, with all the state setters it calls, is one atomic step.
- The dashboard and the alerts page are not modelled as rendered views. In particular the Refresh button's `disabled={isLoading}` (EnhancedDashboard.jsx:576-577), which keeps a second refresh from starting while one runs, is not modelled; each `Refresh` is one atomic step. JSX and chart configuration are left out.
- The server summary's keys differ from the dashboard `Summary`'s keys: there are no resolved/high/medium/low counts. Installing it verbatim is modelled by passing an already-decoded `Summary`, so a value that is missing in the browser (and would become `NaN` there) is not modelled.
- JavaScript truthiness:
  - An id of `NaN` is not modelled. Ids are absent, integers or strings.
  - Message payloads (`data.data`, `data.alerts`) that are present but falsy (`0`, `""`, `false`) are not modelled. A payload is either absent (missing or null) or an alert or alert list.
- The detector modules, the ML models and the detector endpoints' construction of their alert records are foreign code. Each such record, and whether one is produced, is an input.
  - The `/ 10.0` scaling and `confidence > 0.8` thresholds belong to that construction.
  - Floating-point confidence values are `real`.
- `metrics` is an opaque string map. Its nested structure is never inspected by the core.
- `threat_detection_history`, `/api/detection/history` and `/api/detection/stats` are not modelled: they only record and report detector output.
- `websocket_endpoint` is modelled only as its connection bookkeeping and its initial batch. It calls `connect` without an id, so the generated uuid is always used. The following are not modelled:
  - the ping/pong loop;
  - the `if not client_id` check;
  - the nested summary sent with the initial batch.
- The trained-model endpoints call `manager.broadcast_alert`, which the manager does not define (app.py:681, 732). The model records the outcome: the alert is appended, nothing is broadcast, and the request fails with a server error. The error itself is not modelled.
- The logging branch in `disconnect` that tests `connection_timestamps` after the pop is not modelled. It has no effect on state, and it always takes the branch without a duration.
- Test-file creation and cleanup (app.py:804-868) are not modelled: they are filesystem I/O.
- ConnectionManager.Broadcast: the reported count is modelled as written, subtracting the failures twice (see ReportSubtractsFailuresTwice); the value is only logged, so nothing else depends on it. Sends are modelled as a set of client ids whose send throws. The iteration order of the dict and the message text are not modelled, since neither affects the bookkeeping.
- Endpoints.BroadcastAlert: a `json.dumps` failure on unserialisable metrics is not modelled. Only a missing subscripted key makes formatting fail.
- Dashboard: the per-type counters are a map from strings, so a threat type that names an inherited property of a JavaScript object (`"constructor"`, `"toString"`) is treated as absent before its first count, whereas `prev[k] || 0` in the browser reads the inherited value. Such threat types are not modelled.
- Sidebar: the mobile-menu toggle and the `user`/`signOut` display are presentation and are left out.

=== FILE: alerts_page.dfy ===
/** The standalone alerts page (frontend/src/pages/SimpleAlertsPage.jsx): a
    reducer over `(alerts, isConnected, error, lastMessage)` driven by the
    socket's open, close, error and message callbacks. */
module AlertsPage {
  import opened Basics
  import opened ClientAlert

  /** What `JSON.parse` makes of a message. `Malformed` covers text that does
      not parse and values whose `type` cannot be read; `OtherMsg` is any
      parsed envelope whose `type` is neither "alert" nor "initial". A
      payload is `None` when the envelope's `data` or `alerts` is missing or null. */
  datatype Payload =
    | AlertMsg(data: Option<Alert>)
    | InitialMsg(alerts: Option<seq<Alert>>)
    | OtherMsg
    | Malformed

  datatype Event =
    | Opened
    | Closed
    | Errored
    | Received(raw: string, payload: Payload)
    | ConstructFailed

  datatype PageState = PageState(
    alerts: seq<Alert>,
    isConnected: bool,
    error: Option<string>,
    lastMessage: Option<string>)

  /** The page as mounted (SimpleAlertsPage.jsx:4-7). */
  const Initial := PageState([], false, None, None)

  const SocketError := "WebSocket connection error"
  const ConstructError := "Failed to create WebSocket connection"

  /** `ws.onmessage` (SimpleAlertsPage.jsx:20-34): the raw text is always
      recorded; an alert is prepended without deduplication; an initial
      batch replaces the list; anything else leaves it alone. */
  function OnMessage(s: PageState, raw: string, payload: Payload): (r: PageState)
    ensures r.lastMessage == Some(raw)
    ensures r.isConnected == s.isConnected && r.error == s.error
    ensures payload.AlertMsg? && payload.data.Some? ==>
              |r.alerts| == |s.alerts| + 1 && r.alerts[0] == payload.data.value && r.alerts[1..] == s.alerts
    ensures payload.InitialMsg? && payload.alerts.Some? ==> r.alerts == payload.alerts.value
    ensures (!(payload.AlertMsg? && payload.data.Some?) && !(payload.InitialMsg? && payload.alerts.Some?))
            ==> r.alerts == s.alerts
  {
    var alerts :=
      match payload
      case AlertMsg(Some(a)) => [a] + s.alerts
      case InitialMsg(Some(batch)) => batch
      case _ => s.alerts;
    s.(lastMessage := Some(raw), alerts := alerts)
  }

  /** One callback (SimpleAlertsPage.jsx:14-18, 36-45, 48-51). */
  function Step(s: PageState, e: Event): (r: PageState)
    ensures e.Opened? ==> r.isConnected && r.error == None && r.alerts == s.alerts
    ensures e.Closed? ==> !r.isConnected && r.error == s.error && r.alerts == s.alerts
    ensures e.Errored? ==> !r.isConnected && r.error == Some(SocketError) && r.alerts == s.alerts
    ensures e.ConstructFailed? ==> r == s.(error := Some(ConstructError))
    ensures e.Received? ==> r == OnMessage(s, e.raw, e.payload)
    ensures !e.Received? ==> r.lastMessage == s.lastMessage
  {
    match e
    case Opened => s.(isConnected := true, error := None)
    case Closed => s.(isConnected := false)
    case Errored => s.(isConnected := false, error := Some(SocketError))
    case Received(raw, payload) => OnMessage(s, raw, payload)
    case ConstructFailed => s.(error := Some(ConstructError))
  }

  /** `clearAlerts` (SimpleAlertsPage.jsx:76-78). */
  function ClearAlerts(s: PageState): (r: PageState)
    ensures r.alerts == []
    ensures r.isConnected == s.isConnected && r.error == s.error && r.lastMessage == s.lastMessage
  {
    s.(alerts := [])
  }

  /** Runs the callbacks in arrival order. */
  function Run(s: PageState, events: seq<Event>): PageState
    decreases |events|
  {
    if |events| == 0 then s else Run(Step(s, events[0]), events[1..])
  }

  lemma {:induction false} RunSnoc(s: PageState, events: seq<Event>, e: Event)
    ensures Run(s, events + [e]) == Step(Run(s, events), e)
    decreases |events|
  {
    if |events| == 0 {
      assert events + [e] == [e];
    } else {
      assert (events + [e])[1..] == events[1..] + [e];
      RunSnoc(Step(s, events[0]), events[1..], e);
    }
  }

  /** Reference reading of the connection flag: it is set by the latest
      open, close or error callback, and is `initial` if there was none. */
  function ConnectedAfter(initial: bool, events: seq<Event>): bool
    decreases |events|
  {
    if |events| == 0 then initial
    else
      match events[|events| - 1]
      case Opened => true
      case Closed => false
      case Errored => false
      case _ => ConnectedAfter(initial, events[..|events| - 1])
  }

  /** The reducer's connection flag is exactly what the latest connection
      callback says. */
  lemma {:induction false} RunConnectedIsLatest(s: PageState, events: seq<Event>)
    ensures Run(s, events).isConnected == ConnectedAfter(s.isConnected, events)
    decreases |events|
  {
    if |events| > 0 {
      var init, last := events[..|events| - 1], events[|events| - 1];
      assert events == init + [last];
      RunSnoc(s, init, last);
      RunConnectedIsLatest(s, init);
    }
  }

  /** From the mounted page, the indicator shows connected exactly when the
      latest connection callback was an open; before any, it shows
      disconnected. */
  lemma MountedConnectedIsLatest(events: seq<Event>)
    ensures Run(Initial, events).isConnected == ConnectedAfter(false, events)
  {
    RunConnectedIsLatest(Initial, events);
  }

  /** Messages only: every alert message that carries data adds one entry,
      so a repeated alert is listed as many times as it arrives. */
  lemma {:induction false} AlertMessagesAccumulate(s: PageState, events: seq<Event>)
    requires forall i :: 0 <= i < |events| ==>
               events[i].Received? && events[i].payload.AlertMsg? && events[i].payload.data.Some?
    ensures |Run(s, events).alerts| == |s.alerts| + |events|
    ensures Run(s, events).alerts[|events|..] == s.alerts
    decreases |events|
  {
    if |events| > 0 {
      var next := Step(s, events[0]);
      AlertMessagesAccumulate(next, events[1..]);
      var r := Run(next, events[1..]);
      assert r.alerts[|events| - 1..][1..] == r.alerts[|events|..];
    }
  }

  /** The same alert delivered twice is listed twice. */
  lemma DuplicateAlertListedTwice(s: PageState, raw: string, a: Alert)
    ensures Run(s, [Received(raw, AlertMsg(Some(a))), Received(raw, AlertMsg(Some(a)))]).alerts
            == [a, a] + s.alerts
  {
    var e := Received(raw, AlertMsg(Some(a)));
    var s1 := Step(s, e);
    var s2 := Step(s1, e);
    assert [e, e][1..] == [e];
    assert Run(s, [e, e]) == Run(s1, [e]) == Run(s2, []) == s2;
    assert s2.alerts == [a] + ([a] + s.alerts);
  }
}

=== FILE: backend_alerts.dfy ===
/** The server's in-memory alert store (backend/app.py): the alert records,
    the `get_alerts` query, the legacy first-hundred view, the bounded
    history and the record formatting done before a broadcast. */
module BackendAlerts {
  import opened Basics

  /** The `metrics` object; its nested content is never inspected here. */
  type Metrics = map<string, string>

  /** A stored alert. Every endpoint that stores one builds all of these keys. */
  datatype Alert = Alert(
    id: string,
    threatType: string,
    severity: string,
    timestamp: string,
    status: string,
    deviceId: string,
    description: string,
    detectionMethod: string,
    confidence: real,
    metrics: Option<Metrics>)

  /** An alert dictionary as `broadcast_alert` receives it: any key may be
      missing. */
  datatype RawAlert = RawAlert(
    id: Option<string>,
    threatType: Option<string>,
    severity: Option<string>,
    timestamp: Option<string>,
    status: Option<string>,
    deviceId: Option<string>,
    description: Option<string>,
    detectionMethod: Option<string>,
    confidence: Option<real>,
    metrics: Option<Metrics>)

  const DefaultStatus := "open"
  const DefaultDevice := "unknown"
  const DefaultDescription := "No description provided"
  const DefaultMethod := "unknown"
  const DefaultConfidence := 0.0

  /** `dict.get(key, default)`. */
  function GetOr<T>(o: Option<T>, default: T): T {
    match o
    case Some(v) => v
    case None => default
  }

  /** The dictionary view of a stored alert: every key present. */
  function ToRaw(a: Alert): RawAlert {
    RawAlert(Some(a.id), Some(a.threatType), Some(a.severity), Some(a.timestamp),
             Some(a.status), Some(a.deviceId), Some(a.description),
             Some(a.detectionMethod), Some(a.confidence), a.metrics)
  }

  /** The `formatted_alert` of `broadcast_alert` (app.py:199-214): the four
      subscript reads raise when their key is missing, which the caller turns
      into a failed broadcast; the other keys fall back to fixed defaults;
      `metrics` is copied only when present. */
  function Format(raw: RawAlert): (r: Option<Alert>)
    ensures r.None? <==> raw.id.None? || raw.threatType.None? || raw.severity.None? || raw.timestamp.None?
    ensures r.Some? ==>
              && Some(r.value.id) == raw.id && Some(r.value.threatType) == raw.threatType
              && Some(r.value.severity) == raw.severity && Some(r.value.timestamp) == raw.timestamp
              && r.value.metrics == raw.metrics
    ensures r.Some? && raw.status.None? ==> r.value.status == "open"
    ensures r.Some? && raw.deviceId.None? ==> r.value.deviceId == "unknown"
    ensures r.Some? && raw.description.None? ==> r.value.description == "No description provided"
    ensures r.Some? && raw.detectionMethod.None? ==> r.value.detectionMethod == "unknown"
    ensures r.Some? && raw.status.Some? ==> r.value.status == raw.status.value
    ensures r.Some? && raw.deviceId.Some? ==> r.value.deviceId == raw.deviceId.value
    ensures r.Some? && raw.description.Some? ==> r.value.description == raw.description.value
    ensures r.Some? && raw.detectionMethod.Some? ==> r.value.detectionMethod == raw.detectionMethod.value
    ensures r.Some? && raw.confidence.None? ==> r.value.confidence == 0.0
    ensures r.Some? && raw.confidence.Some? ==> r.value.confidence == raw.confidence.value
  {
    if raw.id.None? || raw.threatType.None? || raw.severity.None? || raw.timestamp.None? then None
    else
      Some(Alert(raw.id.value, raw.threatType.value, raw.severity.value, raw.timestamp.value,
                 GetOr(raw.status, DefaultStatus), GetOr(raw.deviceId, DefaultDevice),
                 GetOr(raw.description, DefaultDescription),
                 GetOr(raw.detectionMethod, DefaultMethod),
                 GetOr(raw.confidence, DefaultConfidence), raw.metrics))
  }

  /** Formatting a stored alert gives back that alert: no default is ever
      used on the store's own records. */
  lemma FormatStoredRoundTrip(a: Alert)
    ensures Format(ToRaw(a)) == Some(a)
  {
  }

  /* ---------------------------------------------------------------------- */
  /* Insertion discipline and history                                         */
  /* ---------------------------------------------------------------------- */

  /** `alerts.insert(0, alert)`, used by the detector and test endpoints. */
  function InsertNewest(alerts: seq<Alert>, a: Alert): (r: seq<Alert>)
    ensures |r| == |alerts| + 1 && r[0] == a
    ensures forall i :: 0 <= i < |alerts| ==> r[i + 1] == alerts[i]
  {
    [a] + alerts
  }

  /** `alerts.append(alert)`, used by the trained-model endpoints. */
  function AppendOldest(alerts: seq<Alert>, a: Alert): (r: seq<Alert>)
    ensures |r| == |alerts| + 1 && r[|alerts|] == a
    ensures forall i :: 0 <= i < |alerts| ==> r[i] == alerts[i]
  {
    alerts + [a]
  }

  const MaxHistory: nat := 1000

  /** `alert_history.append(alert)` on a `deque(maxlen=1000)` (app.py:193):
      when full, the oldest entry is evicted. */
  function HistoryAppend(history: seq<Alert>, a: Alert): (r: seq<Alert>)
    ensures r == KeepLast(history + [a], MaxHistory)
    ensures |r| <= MaxHistory && r[|r| - 1] == a
    ensures |history| < MaxHistory ==> r == history + [a]
    ensures |history| == MaxHistory ==> r == history[1..] + [a]
  {
    if |history| < MaxHistory then history + [a]
    else history[|history| - MaxHistory + 1..] + [a]
  }

  /* ---------------------------------------------------------------------- */
  /* Queries                                                                  */
  /* ---------------------------------------------------------------------- */

  /** A query parameter is applied only when given and not empty (Python
      truthiness of `if severity:`). */
  predicate Given(f: Option<string>) {
    f.Some? && f.value != ""
  }

  /** The alert passes the severity filter, when that filter is given. */
  predicate PassesSeverity(a: Alert, severity: Option<string>) {
    Given(severity) ==> a.severity == severity.value
  }

  predicate PassesStatus(a: Alert, status: Option<string>) {
    Given(status) ==> a.status == status.value
  }

  predicate PassesMethod(a: Alert, detMethod: Option<string>) {
    Given(detMethod) ==> a.detectionMethod == detMethod.value
  }

  /** The alert passes every filter that is given. */
  predicate Matches(a: Alert, severity: Option<string>, status: Option<string>, detMethod: Option<string>) {
    PassesSeverity(a, severity) && PassesStatus(a, status) && PassesMethod(a, detMethod)
  }

  /** The test an alert must pass to be listed by a query. */
  function MatchesAll(severity: Option<string>, status: Option<string>, detMethod: Option<string>): Alert -> bool {
    (a: Alert) => Matches(a, severity, status, detMethod)
  }

  /** `if severity: filtered = [a for a in filtered if a["severity"] == severity]` */
  function FilterSeverity(s: seq<Alert>, severity: Option<string>): (r: seq<Alert>)
    ensures r == Filter(s, (a: Alert) => PassesSeverity(a, severity))
  {
    FilterAll(s, (a: Alert) => PassesSeverity(a, severity));
    if Given(severity) then
      FilterSame(s, (a: Alert) => a.severity == severity.value, (a: Alert) => PassesSeverity(a, severity));
      Filter(s, (a: Alert) => a.severity == severity.value)
    else s
  }

  function FilterStatus(s: seq<Alert>, status: Option<string>): (r: seq<Alert>)
    ensures r == Filter(s, (a: Alert) => PassesStatus(a, status))
  {
    FilterAll(s, (a: Alert) => PassesStatus(a, status));
    if Given(status) then
      FilterSame(s, (a: Alert) => a.status == status.value, (a: Alert) => PassesStatus(a, status));
      Filter(s, (a: Alert) => a.status == status.value)
    else s
  }

  function FilterMethod(s: seq<Alert>, detMethod: Option<string>): (r: seq<Alert>)
    ensures r == Filter(s, (a: Alert) => PassesMethod(a, detMethod))
  {
    FilterAll(s, (a: Alert) => PassesMethod(a, detMethod));
    if Given(detMethod) then
      FilterSame(s, (a: Alert) => a.detectionMethod == detMethod.value, (a: Alert) => PassesMethod(a, detMethod));
      Filter(s, (a: Alert) => a.detectionMethod == detMethod.value)
    else s
  }

  /** Python slicing `s[offset:offset + limit]` for a non-negative offset and
      a positive limit. */
  function Page<T>(s: seq<T>, offset: nat, limit: nat): (r: seq<T>)
    ensures |r| <= limit
    ensures offset >= |s| ==> r == []
    ensures offset < |s| ==> |r| == (if offset + limit <= |s| then limit else |s| - offset)
    ensures forall i :: 0 <= i < |r| ==> r[i] == s[offset + i]
    ensures IsSubsequence(r, s)
  {
    var lo := if offset <= |s| then offset else |s|;
    var hi := if offset + limit <= |s| then offset + limit else |s|;
    SliceIsSubsequence(s, lo, hi);
    s[lo..hi]
  }

  /** Applying filters one after the other keeps exactly what passes all of them. */
  lemma {:induction false} FilterTwice<T>(s: seq<T>, p: T -> bool, q: T -> bool, both: T -> bool)
    requires forall x :: both(x) == (p(x) && q(x))
    ensures Filter(Filter(s, p), q) == Filter(s, both)
  {
    if |s| > 0 {
      FilterTwice(s[1..], p, q, both);
      if p(s[0]) {
        assert ([s[0]] + Filter(s[1..], p))[1..] == Filter(s[1..], p);
      }
    }
  }

  /** The three filters of `get_alerts`, applied in turn, keep exactly the
      alerts that pass all of them. */
  lemma FiltersCompose(alerts: seq<Alert>, severity: Option<string>, status: Option<string>, detMethod: Option<string>)
    ensures FilterMethod(FilterStatus(FilterSeverity(alerts, severity), status), detMethod)
            == Filter(alerts, MatchesAll(severity, status, detMethod))
  {
    var pSev := (a: Alert) => PassesSeverity(a, severity);
    var pSta := (a: Alert) => PassesStatus(a, status);
    var pMet := (a: Alert) => PassesMethod(a, detMethod);
    var pSevSta := (a: Alert) => PassesSeverity(a, severity) && PassesStatus(a, status);
    FilterTwice(alerts, pSev, pSta, pSevSta);
    FilterTwice(alerts, pSevSta, pMet, MatchesAll(severity, status, detMethod));
  }

  /** `get_alerts` (app.py:533-553). `None` stands for the request the query
      validation rejects: a limit outside 1..1000 or a negative offset. The
      page is cut from the alerts that pass every given filter, in store
      order. */
  function GetAlerts(alerts: seq<Alert>, limit: int, offset: int,
                     severity: Option<string>, status: Option<string>, detMethod: Option<string>)
    : (r: Option<seq<Alert>>)
    ensures r.Some? <==> 1 <= limit <= 1000 && offset >= 0
    ensures r.Some? ==> r.value == Page(Filter(alerts, MatchesAll(severity, status, detMethod)), offset, limit)
    ensures r.Some? ==> |r.value| <= limit
    ensures r.Some? ==> forall i :: 0 <= i < |r.value| ==> Matches(r.value[i], severity, status, detMethod)
    ensures r.Some? ==> IsSubsequence(r.value, alerts)
  {
    if !(1 <= limit <= 1000 && offset >= 0) then None
    else
      var byMethod := FilterMethod(FilterStatus(FilterSeverity(alerts, severity), status), detMethod);
      FiltersCompose(alerts, severity, status, detMethod);
      PageOfMatches(alerts, severity, status, detMethod, offset, limit);
      Some(Page(byMethod, offset, limit))
  }

  /** A page cut from the matching alerts holds only matching alerts, in
      store order. */
  lemma PageOfMatches(alerts: seq<Alert>, severity: Option<string>, status: Option<string>, detMethod: Option<string>,
                      offset: nat, limit: nat)
    ensures var page := Page(Filter(alerts, MatchesAll(severity, status, detMethod)), offset, limit);
            && (forall i :: 0 <= i < |page| ==> Matches(page[i], severity, status, detMethod))
            && IsSubsequence(page, alerts)
  {
    var matching := Filter(alerts, MatchesAll(severity, status, detMethod));
    var page := Page(matching, offset, limit);
    SubsequenceTransitive(page, matching, alerts);
    forall i | 0 <= i < |page|
      ensures Matches(page[i], severity, status, detMethod)
    {
      assert page[i] == matching[offset + i];
    }
  }

  /** Filtering with a predicate that holds everywhere keeps everything. */
  lemma {:induction false} FilterAll<T>(s: seq<T>, p: T -> bool)
    ensures (forall x :: p(x)) ==> Filter(s, p) == s
  {
    if |s| > 0 {
      FilterAll(s[1..], p);
      assert s == [s[0]] + s[1..];
    }
  }

  /** Filtering depends only on the values the predicate takes. */
  lemma {:induction false} FilterSame<T>(s: seq<T>, p: T -> bool, q: T -> bool)
    requires forall x :: p(x) == q(x)
    ensures Filter(s, p) == Filter(s, q)
  {
    if |s| > 0 {
      FilterSame(s[1..], p, q);
    }
  }

  const LegacyLimit: nat := 100

  /** `get_alerts_legacy` (app.py:555-558): the first hundred stored alerts. */
  function GetAlertsLegacy(alerts: seq<Alert>): (r: seq<Alert>)
    ensures |r| == if |alerts| <= LegacyLimit then |alerts| else LegacyLimit
    ensures r == alerts[..|r|]
  {
    if |alerts| <= LegacyLimit then alerts else alerts[..LegacyLimit]
  }

  /** The legacy view is the unfiltered query with the default limit and offset. */
  lemma LegacyIsDefaultQuery(alerts: seq<Alert>)
    ensures GetAlerts(alerts, 100, 0, None, None, None) == Some(GetAlertsLegacy(alerts))
  {
  }
}

=== FILE: basics.dfy ===
/** Small vocabulary shared by the client and server models: optional values,
    the outcome of an awaited call that may throw, counting and filtering over
    sequences, per-key counters in maps, and bounded windows. */
module Basics {

  datatype Option<+T> = None | Some(value: T)

  /** The outcome of an awaited call that either returns a value or throws
      an error carrying a message. */
  datatype Fetch<+T> = Fetched(value: T) | Threw(message: string)

  /* ---------------------------------------------------------------------- */
  /* Counting and filtering                                                   */
  /* ---------------------------------------------------------------------- */

  /** Number of elements of `s` that satisfy `p`. */
  function Count<T>(s: seq<T>, p: T -> bool): (n: nat)
    ensures n <= |s|
    ensures n == |s| <==> forall i :: 0 <= i < |s| ==> p(s[i])
    ensures n == 0 <==> forall i :: 0 <= i < |s| ==> !p(s[i])
  {
    if |s| == 0 then 0
    else
      var rest := Count(s[1..], p);
      assert forall i :: 1 <= i < |s| ==> s[i] == s[1..][i - 1];
      (if p(s[0]) then 1 else 0) + rest
  }

  lemma CountPrepend<T>(x: T, s: seq<T>, p: T -> bool)
    ensures Count([x] + s, p) == (if p(x) then 1 else 0) + Count(s, p)
  {
    assert ([x] + s)[1..] == s;
  }

  /** Counts are monotone in the predicate. */
  lemma {:induction false} CountMonotone<T>(s: seq<T>, p: T -> bool, q: T -> bool)
    requires forall x :: p(x) ==> q(x)
    ensures Count(s, p) <= Count(s, q)
  {
    if |s| > 0 {
      CountMonotone(s[1..], p, q);
    }
  }

  /** Every element satisfies exactly one of `p` and its negation. */
  lemma {:induction false} CountComplement<T>(s: seq<T>, p: T -> bool, notP: T -> bool)
    requires forall x :: notP(x) == !p(x)
    ensures Count(s, p) + Count(s, notP) == |s|
  {
    if |s| > 0 {
      CountComplement(s[1..], p, notP);
    }
  }

  /** The elements of `s` that satisfy `p`, in their original order. */
  function Filter<T>(s: seq<T>, p: T -> bool): (r: seq<T>)
    ensures |r| == Count(s, p)
    ensures forall i :: 0 <= i < |r| ==> p(r[i]) && r[i] in s
    ensures forall i :: 0 <= i < |s| && p(s[i]) ==> s[i] in r
    ensures IsSubsequence(r, s)
  {
    if |s| == 0 then []
    else
      var rest := Filter(s[1..], p);
      assert forall i :: 1 <= i < |s| ==> s[i] == s[1..][i - 1];
      if p(s[0]) then [s[0]] + rest else rest
  }

  /* ---------------------------------------------------------------------- */
  /* Order preservation                                                       */
  /* ---------------------------------------------------------------------- */

  /** `a` can be obtained from `b` by deleting elements, so every element of
      `a` comes from `b` and the relative order is kept. */
  predicate IsSubsequence<T(==)>(a: seq<T>, b: seq<T>)
    decreases |b|
  {
    if |a| == 0 then true
    else if |b| == 0 then false
    else (a[0] == b[0] && IsSubsequence(a[1..], b[1..])) || IsSubsequence(a, b[1..])
  }

  lemma {:induction false} SubsequenceTransitive<T>(a: seq<T>, b: seq<T>, c: seq<T>)
    requires IsSubsequence(a, b) && IsSubsequence(b, c)
    ensures IsSubsequence(a, c)
    decreases |c|
  {
    if |a| > 0 {
      if b[0] == c[0] && IsSubsequence(b[1..], c[1..]) {
        if a[0] == b[0] && IsSubsequence(a[1..], b[1..]) {
          SubsequenceTransitive(a[1..], b[1..], c[1..]);
        } else {
          SubsequenceTransitive(a, b[1..], c[1..]);
        }
      } else {
        SubsequenceTransitive(a, b, c[1..]);
      }
    }
  }

  lemma {:induction false} PrefixIsSubsequence<T>(s: seq<T>, j: nat)
    requires j <= |s|
    ensures IsSubsequence(s[..j], s)
  {
    if j > 0 {
      assert s[..j][1..] == s[1..][..j - 1];
      PrefixIsSubsequence(s[1..], j - 1);
    }
  }

  lemma {:induction false} SuffixIsSubsequence<T>(s: seq<T>, i: nat)
    requires i <= |s|
    ensures IsSubsequence(s[i..], s)
  {
    if i == 0 {
      PrefixIsSubsequence(s, |s|);
      assert s[..|s|] == s[0..];
    } else {
      assert s[1..][i - 1..] == s[i..];
      SuffixIsSubsequence(s[1..], i - 1);
    }
  }

  /** A contiguous slice keeps the relative order of what it is sliced from. */
  lemma SliceIsSubsequence<T>(s: seq<T>, i: nat, j: nat)
    requires i <= j <= |s|
    ensures IsSubsequence(s[i..j], s)
  {
    assert s[i..j] == s[i..][..j - i];
    PrefixIsSubsequence(s[i..], j - i);
    SuffixIsSubsequence(s, i);
    SubsequenceTransitive(s[i..j], s[i..], s);
  }

  /* ---------------------------------------------------------------------- */
  /* Per-key counters                                                          */
  /* ---------------------------------------------------------------------- */

  /** Adds one to the counter under `k`, starting it at one when absent. */
  function Bump<K>(m: map<K, int>, k: K): (r: map<K, int>)
    ensures r.Keys == m.Keys + {k}
    ensures forall j :: j in m && j != k ==> r[j] == m[j]
    ensures r[k] == (if k in m then m[k] else 0) + 1
  {
    m[k := (if k in m then m[k] else 0) + 1]
  }

  /** Sum of all counters of a map. */
  ghost function MapSum<K>(m: map<K, int>): int
    decreases |m|
  {
    if m == map[] then 0
    else
      var k :| k in m;
      assert (m - {k}).Keys == m.Keys - {k};
      m[k] + MapSum(m - {k})
  }

  /** The sum does not depend on which key is taken out first. */
  lemma {:induction false} MapSumRemove<K>(m: map<K, int>, k: K)
    requires k in m
    ensures MapSum(m) == m[k] + MapSum(m - {k})
    decreases |m|
  {
    var k0 :| k0 in m && MapSum(m) == m[k0] + MapSum(m - {k0});
    if k0 != k {
      assert (m - {k0}).Keys == m.Keys - {k0};
      assert (m - {k}).Keys == m.Keys - {k};
      MapSumRemove(m - {k0}, k);
      MapSumRemove(m - {k}, k0);
      assert m - {k0} - {k} == m - {k} - {k0};
    }
  }

  lemma MapSumBump<K>(m: map<K, int>, k: K)
    ensures MapSum(Bump(m, k)) == MapSum(m) + 1
  {
    var r := Bump(m, k);
    MapSumRemove(r, k);
    if k in m {
      MapSumRemove(m, k);
      assert r - {k} == m - {k};
    } else {
      assert r - {k} == m;
    }
  }

  /* ---------------------------------------------------------------------- */
  /* Bounded windows                                                          */
  /* ---------------------------------------------------------------------- */

  /** The last `n` elements of `s`, or all of `s` when it is shorter. */
  function KeepLast<T>(s: seq<T>, n: nat): (r: seq<T>)
    ensures |r| == if |s| <= n then |s| else n
    ensures forall i :: 0 <= i < |r| ==> r[i] == s[|s| - |r| + i]
  {
    if |s| <= n then s else s[|s| - n..]
  }
}

=== FILE: client_alert.dfy ===
/** An alert as the browser receives it: a JSON object whose fields may be
    missing. Only the fields the dashboard and the alerts page look at are
    kept; the rest of the object is carried along unread. */
module ClientAlert {
  import opened Basics

  /** A JSON `id`: absent, a number or a string. Strict equality (`===`)
      distinguishes the number 1 from the string "1", as datatype equality does. */
  datatype AlertId = NoId | NumId(n: int) | StrId(s: string)

  /** JavaScript truthiness of an id: `undefined`, `0` and `""` are falsy. */
  predicate Truthy(id: AlertId) {
    match id
    case NoId => false
    case NumId(n) => n != 0
    case StrId(s) => s != ""
  }

  datatype Alert = Alert(
    id: AlertId,
    threatType: Option<string>,
    severity: Option<string>,
    status: Option<string>,
    message: Option<string>,
    timestamp: Option<string>)

  /** True iff a threat type is present and not the empty string. */
  predicate HasThreatType(a: Alert) {
    a.threatType.Some? && a.threatType.value != ""
  }

  /** Some entry of `alerts` carries `id`. */
  predicate ContainsId(alerts: seq<Alert>, id: AlertId) {
    exists i :: 0 <= i < |alerts| && alerts[i].id == id
  }

  /** No two entries of `alerts` carry the same id. */
  predicate UniqueIds(alerts: seq<Alert>) {
    forall i, j :: 0 <= i < j < |alerts| ==> alerts[i].id != alerts[j].id
  }
}

=== FILE: connection_manager.dfy ===
/** The server's WebSocket bookkeeping (`ConnectionManager`,
    backend/app.py:107-165): the open sockets and their connection times,
    keyed by client id, and four running counters. Sockets are opaque
    handles; whether the handshake or a send succeeds is given as a
    parameter. */
module ConnectionManager {
  import opened Basics

  type ClientId = string

  /** An accepted WebSocket, known only by identity. */
  datatype Socket = Socket(handle: nat)

  datatype Stats = Stats(
    totalConnections: nat,
    totalDisconnections: nat,
    messagesSent: nat,
    errors: nat)

  datatype Manager = Manager(
    active: map<ClientId, Socket>,
    connectedAt: map<ClientId, string>,
    stats: Stats)

  /** The manager as constructed (app.py:108-116). */
  const Empty := Manager(map[], map[], Stats(0, 0, 0, 0))

  /** Every open socket has a connection time and nothing else does. */
  predicate Wellformed(m: Manager) {
    m.active.Keys == m.connectedAt.Keys
  }

  /** Every client still open was counted in and not yet counted out: the
      connection count covers the open sockets and the disconnections. It
      can exceed them, because reconnecting under an id that is already open
      replaces the socket but still counts a connection. */
  predicate Accounted(m: Manager) {
    |m.active| + m.stats.totalDisconnections <= m.stats.totalConnections
  }

  predicate Valid(m: Manager) {
    Wellformed(m) && Accounted(m)
  }

  lemma EmptyValid()
    ensures Valid(Empty)
  {
  }

  /* ---------------------------------------------------------------------- */
  /* connect / disconnect                                                     */
  /* ---------------------------------------------------------------------- */

  datatype Connected = Connected(manager: Manager, clientId: Option<ClientId>)

  /** `connect` (app.py:118-136). `accepted` says whether `websocket.accept()`
      returned; `generated` is the uuid drawn when no id is requested. A
      failed handshake counts an error and yields no id. */
  function Connect(m: Manager, ws: Socket, requested: Option<ClientId>, generated: ClientId,
                   accepted: bool, now: string): (r: Connected)
    ensures !accepted ==> r.clientId.None? && r.manager == m.(stats := m.stats.(errors := m.stats.errors + 1))
    ensures accepted ==>
              && r.clientId == Some(if requested.Some? then requested.value else generated)
              && r.manager.active == m.active[r.clientId.value := ws]
              && r.manager.connectedAt == m.connectedAt[r.clientId.value := now]
              && r.manager.stats == m.stats.(totalConnections := m.stats.totalConnections + 1)
  {
    if !accepted then
      Connected(m.(stats := m.stats.(errors := m.stats.errors + 1)), None)
    else
      var id := GetId(requested, generated);
      Connected(Manager(m.active[id := ws], m.connectedAt[id := now],
                        m.stats.(totalConnections := m.stats.totalConnections + 1)),
                Some(id))
  }

  /** `if client_id is None: client_id = str(uuid.uuid4())`: an empty but
      given id is kept. */
  function GetId(requested: Option<ClientId>, generated: ClientId): (r: ClientId)
    ensures requested.Some? ==> r == requested.value
    ensures requested.None? ==> r == generated
  {
    match requested
    case Some(id) => id
    case None => generated
  }

  /** `disconnect` (app.py:138-148): a known client leaves both maps and is
      counted out once; an unknown id changes nothing. */
  function Disconnect(m: Manager, id: ClientId): (r: Manager)
    ensures id !in m.active ==> r == m
    ensures id in m.active ==>
              && r.active == m.active - {id}
              && r.connectedAt == m.connectedAt - {id}
              && r.stats == m.stats.(totalDisconnections := m.stats.totalDisconnections + 1)
  {
    if id in m.active then
      Manager(m.active - {id}, m.connectedAt - {id},
              m.stats.(totalDisconnections := m.stats.totalDisconnections + 1))
    else m
  }

  /** Disconnecting twice is disconnecting once. */
  lemma DisconnectIdempotent(m: Manager, id: ClientId)
    ensures Disconnect(Disconnect(m, id), id) == Disconnect(m, id)
  {
  }

  /** Connecting and then disconnecting the same client leaves no trace of it
      in the maps, and counts one connection and one disconnection. */
  lemma ConnectThenDisconnect(m: Manager, ws: Socket, requested: Option<ClientId>, generated: ClientId, now: string)
    requires GetId(requested, generated) !in m.active && GetId(requested, generated) !in m.connectedAt
    ensures var c := Connect(m, ws, requested, generated, true, now);
            var r := Disconnect(c.manager, c.clientId.value);
            && r.active == m.active && r.connectedAt == m.connectedAt
            && r.stats.totalConnections == m.stats.totalConnections + 1
            && r.stats.totalDisconnections == m.stats.totalDisconnections + 1
  {
    var id := GetId(requested, generated);
    var c := Connect(m, ws, requested, generated, true, now);
    assert c.manager.active - {id} == m.active;
    assert c.manager.connectedAt - {id} == m.connectedAt;
  }

  /** Connecting keeps the manager valid, whether or not the handshake
      succeeds and whether or not the id was already open. */
  lemma ConnectPreservesValid(m: Manager, ws: Socket, requested: Option<ClientId>, generated: ClientId,
                              accepted: bool, now: string)
    requires Valid(m)
    ensures Valid(Connect(m, ws, requested, generated, accepted, now).manager)
  {
    if accepted {
      var id := GetId(requested, generated);
      var r := Connect(m, ws, requested, generated, accepted, now).manager;
      assert r.active.Keys == m.active.Keys + {id};
      if id in m.active {
        assert r.active.Keys == m.active.Keys;
      } else {
        assert |r.active.Keys| == |m.active.Keys| + 1;
      }
    }
  }

  /** Disconnecting keeps the manager valid. */
  lemma DisconnectPreservesValid(m: Manager, id: ClientId)
    requires Valid(m)
    ensures Valid(Disconnect(m, id))
  {
    if id in m.active {
      assert (m.active - {id}).Keys == m.active.Keys - {id};
      assert |(m.active - {id}).Keys| == |m.active.Keys| - 1;
    }
  }

  /* ---------------------------------------------------------------------- */
  /* broadcast                                                                */
  /* ---------------------------------------------------------------------- */

  /** The open clients whose send fails, given the clients whose socket
      would throw on `send_text`. */
  function Failed(m: Manager, failing: set<ClientId>): (r: set<ClientId>)
    ensures r <= m.active.Keys && r <= failing
    ensures forall c :: c in m.active && c in failing ==> c in r
  {
    m.active.Keys * failing
  }

  /** Reference reading of the cleanup: all of `gone` that is open leaves
      both maps at once and is counted out. */
  function DisconnectAll(m: Manager, gone: set<ClientId>): Manager
    requires gone <= m.active.Keys
  {
    Manager(m.active - gone, m.connectedAt - gone,
            m.stats.(totalDisconnections := m.stats.totalDisconnections + |gone|))
  }

  datatype Broadcasted = Broadcasted(manager: Manager, reported: int)

  /** What `broadcast` does, all at once: one message counted, one error per
      failed send, every failed client disconnected, and the reported number
      of reached clients taken after the cleanup, minus the failures again. */
  function BroadcastOutcome(m: Manager, failing: set<ClientId>): (r: Broadcasted)
    ensures r.manager.active.Keys == m.active.Keys - Failed(m, failing)
    ensures forall c :: c in r.manager.active ==> r.manager.active[c] == m.active[c]
    ensures r.manager.connectedAt == m.connectedAt - Failed(m, failing)
    ensures r.manager.stats == m.stats.(messagesSent := m.stats.messagesSent + 1,
                                        errors := m.stats.errors + |Failed(m, failing)|,
                                        totalDisconnections := m.stats.totalDisconnections + |Failed(m, failing)|)
    ensures r.reported == |m.active| - 2 * |Failed(m, failing)|
  {
    var failed := Failed(m, failing);
    var sent := m.stats.(messagesSent := m.stats.messagesSent + 1, errors := m.stats.errors + |failed|);
    var after := DisconnectAll(m.(stats := sent), failed);
    assert after.active.Keys == m.active.Keys - failed;
    assert |after.active.Keys| == |m.active.Keys| - |failed| by {
      CardinalityOfDifference(m.active.Keys, failed);
    }
    Broadcasted(after, |after.active| - |failed|)
  }

  lemma CardinalityOfDifference<T>(a: set<T>, b: set<T>)
    requires b <= a
    ensures |a - b| == |a| - |b|
  {
    assert a == (a - b) + b;
  }

  /** The cleanup loop of `broadcast` (app.py:162-163): one `disconnect`
      call per failed client, in any order, ends where the all-at-once
      reading does. */
  method DisconnectEach(start: Manager, gone: set<ClientId>) returns (r: Manager)
    requires gone <= start.active.Keys
    ensures r == DisconnectAll(start, gone)
  {
    r := start;
    var pending, done := gone, {};
    while pending != {}
      invariant done + pending == gone
      invariant done !! pending
      invariant r == DisconnectAll(start, done)
      decreases |pending|
    {
      var c :| c in pending;
      DisconnectOneMore(start, done, c);
      r := Disconnect(r, c);
      done, pending := done + {c}, pending - {c};
    }
  }

  /** `broadcast` (app.py:150-165): count the message, count one error per
      failed send, disconnect the failed clients, and report the clients
      left minus the failures. */
  method Broadcast(m: Manager, failing: set<ClientId>) returns (r: Manager, reported: int)
    ensures Broadcasted(r, reported) == BroadcastOutcome(m, failing)
    ensures r.stats.messagesSent == m.stats.messagesSent + 1
    ensures r.stats.errors == m.stats.errors + |Failed(m, failing)|
  {
    var failed := Failed(m, failing);
    var start := m.(stats := m.stats.(messagesSent := m.stats.messagesSent + 1, errors := m.stats.errors + |failed|));
    r := DisconnectEach(start, failed);
    reported := |r.active| - |failed|;
    OutcomeIsCleanup(m, failing);
  }

  /** The all-at-once outcome, spelled out as counting then cleanup. */
  lemma OutcomeIsCleanup(m: Manager, failing: set<ClientId>)
    ensures var failed := Failed(m, failing);
            var start := m.(stats := m.stats.(messagesSent := m.stats.messagesSent + 1, errors := m.stats.errors + |failed|));
            BroadcastOutcome(m, failing) == Broadcasted(DisconnectAll(start, failed), |DisconnectAll(start, failed).active| - |failed|)
  {
  }

  /** Disconnecting one more open client extends the set already cleaned up. */
  lemma DisconnectOneMore(m: Manager, done: set<ClientId>, c: ClientId)
    requires done <= m.active.Keys && c in m.active && c !in done
    ensures Disconnect(DisconnectAll(m, done), c) == DisconnectAll(m, done + {c})
  {
    assert |done + {c}| == |done| + 1;
    assert m.active - done - {c} == m.active - (done + {c});
    assert m.connectedAt - done - {c} == m.connectedAt - (done + {c});
  }

  /** The reported count subtracts the failures twice: one open client
      whose send fails leaves no client and a report of -1, not 0. */
  lemma ReportSubtractsFailuresTwice(m: Manager, c: ClientId)
    requires m.active.Keys == {c}
    ensures BroadcastOutcome(m, {c}).reported == -1
    ensures BroadcastOutcome(m, {c}).manager.active == map[]
  {
    assert Failed(m, {c}) == {c};
    assert BroadcastOutcome(m, {c}).manager.active.Keys == {};
  }

  /** Broadcasting keeps the manager valid. */
  lemma BroadcastPreservesValid(m: Manager, failing: set<ClientId>)
    requires Valid(m)
    ensures Valid(BroadcastOutcome(m, failing).manager)
  {
    var failed := Failed(m, failing);
    var r := BroadcastOutcome(m, failing).manager;
    CardinalityOfDifference(m.active.Keys, failed);
    assert r.active.Keys == m.active.Keys - failed;
    assert r.connectedAt.Keys == m.connectedAt.Keys - failed;
  }
}

=== FILE: dashboard.dfy ===
/** The live dashboard (frontend/src/components/EnhancedDashboard.jsx): the
    alert list, the summary counters, the per-threat-type counters and the
    time-series buffers, advanced one handler at a time. Each React state
    setter a handler calls is applied atomically with the others. */
module Dashboard {
  import opened Basics
  import opened ClientAlert
  import opened SummaryAggregator

  /** Buffers behind the network-activity chart. */
  datatype NetworkData = NetworkData(
    timestamps: seq<string>,
    inbound: seq<real>,
    outbound: seq<real>,
    threats: seq<int>,
    anomalyScores: seq<real>)

  datatype State = State(
    alerts: seq<Alert>,
    summary: Summary,
    threatTypes: map<string, int>,
    network: NetworkData,
    isLoading: bool,
    isConnected: bool,
    error: Option<string>,
    lastUpdated: Option<string>)

  /** The state the component mounts with (EnhancedDashboard.jsx:35-76). */
  const Initial := State(
    [], Zero,
    map["Malware" := 0, "Phishing" := 0, "DDoS" := 0, "Brute Force" := 0,
        "Port Scanning" := 0, "Data Exfiltration" := 0],
    NetworkData([], [], [], [], []),
    true, false, None, None)

  /** The mounted state is the base of the list invariants: no repeated ids,
      counters that agree with the (empty) list, and no threat counted yet. */
  lemma InitialIsExact()
    ensures UniqueIds(Initial.alerts)
    ensures Initial.summary == Recompute(Initial.alerts)
    ensures MapSum(Initial.threatTypes) == 0
  {
    var m := Initial.threatTypes;
    assert "Malware" in m;
    MapSumRemove(m, "Malware");
    var m1 := m - {"Malware"};
    assert "Phishing" in m1;
    MapSumRemove(m1, "Phishing");
    var m2 := m1 - {"Phishing"};
    assert "DDoS" in m2;
    MapSumRemove(m2, "DDoS");
    var m3 := m2 - {"DDoS"};
    assert "Brute Force" in m3;
    MapSumRemove(m3, "Brute Force");
    var m4 := m3 - {"Brute Force"};
    assert "Port Scanning" in m4;
    MapSumRemove(m4, "Port Scanning");
    var m5 := m4 - {"Port Scanning"};
    assert "Data Exfiltration" in m5;
    MapSumRemove(m5, "Data Exfiltration");
    assert m5 - {"Data Exfiltration"} == map[];
  }

  /* ---------------------------------------------------------------------- */
  /* Alert list upsert                                                         */
  /* ---------------------------------------------------------------------- */

  /** Replaces every entry carrying `a`'s id by `a`, leaving the others and
      all positions as they are (the `current.map(...)` of line 224). */
  function ReplaceById(current: seq<Alert>, a: Alert): (r: seq<Alert>)
    ensures |r| == |current|
    ensures forall i :: 0 <= i < |r| ==> r[i].id == current[i].id
    ensures forall i :: 0 <= i < |r| && current[i].id == a.id ==> r[i] == a
    ensures forall i :: 0 <= i < |r| && current[i].id != a.id ==> r[i] == current[i]
  {
    if |current| == 0 then []
    else [if current[0].id == a.id then a else current[0]] + ReplaceById(current[1..], a)
  }

  /** Upsert keyed on `id` (EnhancedDashboard.jsx:220-228): an entry with the
      same id is replaced where it stands; otherwise the alert goes in front. */
  function Upsert(current: seq<Alert>, a: Alert): (r: seq<Alert>)
    ensures ContainsId(current, a.id) ==> r == ReplaceById(current, a)
    ensures !ContainsId(current, a.id) ==> r == [a] + current
    ensures ContainsId(r, a.id)
  {
    if exists i :: 0 <= i < |current| && current[i].id == a.id then ReplaceById(current, a)
    else
      assert ([a] + current)[0] == a;
      [a] + current
  }

  /** An upsert never creates a second entry for an id. */
  lemma UpsertKeepsIdsUnique(current: seq<Alert>, a: Alert)
    requires UniqueIds(current)
    ensures UniqueIds(Upsert(current, a))
  {
    var r := Upsert(current, a);
    if !ContainsId(current, a.id) {
      forall i, j | 0 <= i < j < |r|
        ensures r[i].id != r[j].id
      {
        if i == 0 {
          assert r[j] == current[j - 1];
        } else {
          assert r[i] == current[i - 1] && r[j] == current[j - 1];
        }
      }
    }
  }

  /* ---------------------------------------------------------------------- */
  /* Time-series window                                                       */
  /* ---------------------------------------------------------------------- */

  /** `[...prev.slice(1), x]`: drops the oldest sample, when there is one, and
      appends `x`, so the window keeps the most recent `max(|s|, 1)` samples. */
  function Shift<T>(s: seq<T>, x: T): (r: seq<T>)
    ensures r == KeepLast(s + [x], if |s| == 0 then 1 else |s|)
    ensures |r| == if |s| == 0 then 1 else |s|
    ensures r[|r| - 1] == x
    ensures forall i :: 0 <= i < |r| - 1 ==> r[i] == s[i + 1]
  {
    (if |s| == 0 then s else s[1..]) + [x]
  }

  /** Shifts the timestamp, threat and anomaly buffers
      (EnhancedDashboard.jsx:248-262); the traffic buffers are untouched.
      `timeLabel` is the formatted clock time and `sample` the random anomaly
      score. */
  function ShiftWindow(net: NetworkData, timeLabel: string, sample: real): (r: NetworkData)
    ensures r.inbound == net.inbound && r.outbound == net.outbound
    ensures r.timestamps == Shift(net.timestamps, timeLabel)
    ensures r.threats == Shift(net.threats, 1)
    ensures r.anomalyScores == Shift(net.anomalyScores, sample)
    ensures |r.threats| == if |net.threats| == 0 then 1 else |net.threats|
    ensures r.threats[|r.threats| - 1] == 1
    ensures forall i :: 0 <= i < |r.threats| - 1 ==> r.threats[i] == net.threats[i + 1]
  {
    net.(timestamps := Shift(net.timestamps, timeLabel),
         threats := Shift(net.threats, 1),
         anomalyScores := Shift(net.anomalyScores, sample))
  }

  /** The 30-second timer (EnhancedDashboard.jsx:275-277) only shifts the
      buffers; the alert list, every counter and every flag are left alone. */
  function Tick(st: State, timeLabel: string, sample: real): (r: State)
    ensures r.alerts == st.alerts && r.summary == st.summary && r.threatTypes == st.threatTypes
    ensures r.isLoading == st.isLoading && r.isConnected == st.isConnected
    ensures r.error == st.error && r.lastUpdated == st.lastUpdated
    ensures r.network == ShiftWindow(st.network, timeLabel, sample)
  {
    st.(network := ShiftWindow(st.network, timeLabel, sample))
  }

  /* ---------------------------------------------------------------------- */
  /* Live alert handler                                                       */
  /* ---------------------------------------------------------------------- */

  /** The per-type counters after an alert: bumped under a non-empty threat
      type (EnhancedDashboard.jsx:234-239). */
  function CountThreatType(counts: map<string, int>, a: Alert): (r: map<string, int>)
    ensures !HasThreatType(a) ==> r == counts
    ensures HasThreatType(a) ==> r.Keys == counts.Keys + {a.threatType.value}
    ensures HasThreatType(a) ==> r[a.threatType.value]
                                 == (if a.threatType.value in counts then counts[a.threatType.value] else 0) + 1
    ensures forall k :: k in counts && (!HasThreatType(a) || k != a.threatType.value) ==> r[k] == counts[k]
  {
    if HasThreatType(a) then Bump(counts, a.threatType.value) else counts
  }

  /** `handleNewAlert` (EnhancedDashboard.jsx:208-245). An absent alert or one
      whose id is falsy is dropped; otherwise the list is upserted, the delta
      is applied whether or not the id was already present, the type counter
      is bumped and the window shifted. `timeLabel` and `sample` are the window's
      time label and random anomaly score; `at` is the separate clock reading
      stored as the last update time. */
  function HandleNewAlert(st: State, incoming: Option<Alert>, timeLabel: string, sample: real, at: string): (r: State)
    ensures incoming.None? || !Truthy(incoming.value.id) ==> r == st
    ensures incoming.Some? && Truthy(incoming.value.id) ==>
              && r.alerts == Upsert(st.alerts, incoming.value)
              && r.summary == Plus(st.summary, Contribution(incoming.value))
              && r.threatTypes == CountThreatType(st.threatTypes, incoming.value)
              && r.network == ShiftWindow(st.network, timeLabel, sample)
              && r.lastUpdated == Some(at)
              && r.isConnected == st.isConnected && r.error == st.error
              && r.isLoading == st.isLoading
  {
    match incoming
    case None => st
    case Some(a) =>
      if !Truthy(a.id) then st
      else
        st.(alerts := Upsert(st.alerts, a),
            summary := ApplyDelta(st.summary, a, true),
            threatTypes := CountThreatType(st.threatTypes, a),
            network := ShiftWindow(st.network, timeLabel, sample),
            lastUpdated := Some(at))
  }

  /** An alert whose id is already listed replaces that entry in place: the
      length and every other entry stay as they were. */
  lemma KnownIdReplacedInPlace(st: State, a: Alert, timeLabel: string, sample: real, at: string, k: nat)
    requires Truthy(a.id) && k < |st.alerts| && st.alerts[k].id == a.id
    ensures |HandleNewAlert(st, Some(a), timeLabel, sample, at).alerts| == |st.alerts|
    ensures HandleNewAlert(st, Some(a), timeLabel, sample, at).alerts[k] == a
    ensures forall i :: 0 <= i < |st.alerts| && st.alerts[i].id != a.id
              ==> HandleNewAlert(st, Some(a), timeLabel, sample, at).alerts[i] == st.alerts[i]
  {
    assert ContainsId(st.alerts, a.id);
  }

  /** An alert with an unseen id goes in front of the old list, which
      follows in the same order. */
  lemma FreshIdPrepended(st: State, a: Alert, timeLabel: string, sample: real, at: string)
    requires Truthy(a.id) && !ContainsId(st.alerts, a.id)
    ensures HandleNewAlert(st, Some(a), timeLabel, sample, at).alerts == [a] + st.alerts
    ensures HandleNewAlert(st, Some(a), timeLabel, sample, at).alerts[1..] == st.alerts
  {
  }

  /** A fresh alert keeps a summary that agrees with the list agreeing. */
  lemma FreshIdKeepsSummaryExact(st: State, a: Alert, timeLabel: string, sample: real, at: string)
    requires Truthy(a.id) && !ContainsId(st.alerts, a.id)
    requires st.summary == Recompute(st.alerts)
    ensures HandleNewAlert(st, Some(a), timeLabel, sample, at).summary
            == Recompute(HandleNewAlert(st, Some(a), timeLabel, sample, at).alerts)
  {
    var r := HandleNewAlert(st, Some(a), timeLabel, sample, at);
    assert r.alerts == [a] + st.alerts && r.summary == Plus(st.summary, Contribution(a));
    RecomputePrepend(a, st.alerts);
    PlusCommutes(st.summary, Contribution(a));
  }

  /** Because the delta is applied for a known id too, a repeated push leaves
      the list length alone but raises the total: the counter then exceeds
      the number of listed alerts. */
  lemma RepeatedIdOvercounts(st: State, a: Alert, timeLabel: string, sample: real, at: string)
    requires Truthy(a.id) && ContainsId(st.alerts, a.id)
    requires st.summary.total == |st.alerts|
    ensures HandleNewAlert(st, Some(a), timeLabel, sample, at).summary.total
            == |HandleNewAlert(st, Some(a), timeLabel, sample, at).alerts| + 1
  {
  }

  /** The threat-type counters gain exactly one in total per accepted alert
      that names a threat type. */
  lemma ThreatTypeTotalGrowsByOne(st: State, a: Alert, timeLabel: string, sample: real, at: string)
    requires Truthy(a.id) && HasThreatType(a)
    ensures MapSum(HandleNewAlert(st, Some(a), timeLabel, sample, at).threatTypes) == MapSum(st.threatTypes) + 1
  {
    MapSumBump(st.threatTypes, a.threatType.value);
  }

  /** One live message as the handler sees it: the alert, if any, and the
      time label, anomaly sample and clock reading drawn while handling it. */
  datatype Push = Push(alert: Option<Alert>, timeLabel: string, sample: real, at: string)

  /** Delivers a stream of live alerts, one handler run each. */
  function Deliver(st: State, pushes: seq<Push>): State
    decreases |pushes|
  {
    if |pushes| == 0 then st
    else
      var p := pushes[0];
      Deliver(HandleNewAlert(st, p.alert, p.timeLabel, p.sample, p.at), pushes[1..])
  }

  /** However the live alerts arrive, a list without repeated ids never gains one. */
  lemma {:induction false} DeliverKeepsIdsUnique(st: State, pushes: seq<Push>)
    requires UniqueIds(st.alerts)
    ensures UniqueIds(Deliver(st, pushes).alerts)
    decreases |pushes|
  {
    if |pushes| > 0 {
      var p := pushes[0];
      var next := HandleNewAlert(st, p.alert, p.timeLabel, p.sample, p.at);
      if p.alert.Some? && Truthy(p.alert.value.id) {
        UpsertKeepsIdsUnique(st.alerts, p.alert.value);
      }
      DeliverKeepsIdsUnique(next, pushes[1..]);
    }
  }

  /* ---------------------------------------------------------------------- */
  /* Snapshot load and refresh                                                */
  /* ---------------------------------------------------------------------- */

  /** The summary after a snapshot: the server's, verbatim, when that call
      returns; recomputed from the snapshot only when it throws. */
  function ReconcileSummary(snapshot: seq<Alert>, fromServer: Fetch<Summary>): (r: Summary)
    ensures fromServer.Fetched? ==> r == fromServer.value
    ensures fromServer.Threw? ==> r == Recompute(snapshot)
    ensures fromServer.Threw? ==> r.total == |snapshot| && r.open + r.resolved == r.total
  {
    match fromServer
    case Fetched(s) => s
    case Threw(_) => Recompute(snapshot)
  }

  /** `loadInitialData` (EnhancedDashboard.jsx:92-125). `stats` and `window`
      stand for the random per-type counters and the random 24-hour buffers
      the mount path generates. */
  function LoadInitialData(st: State, snapshot: Fetch<seq<Alert>>, fromServer: Fetch<Summary>,
                           stats: map<string, int>, window: NetworkData, now: string): (r: State)
    ensures !r.isLoading && r.isConnected == st.isConnected
    ensures snapshot.Threw? ==>
              && r.error == Some("Failed to load data: " + snapshot.message)
              && r.alerts == st.alerts && r.summary == st.summary
              && r.threatTypes == st.threatTypes && r.network == st.network
              && r.lastUpdated == st.lastUpdated
    ensures snapshot.Fetched? ==>
              && r.error == None && r.alerts == snapshot.value
              && r.summary == ReconcileSummary(snapshot.value, fromServer)
              && r.threatTypes == stats && r.network == window
              && r.lastUpdated == Some(now)
  {
    match snapshot
    case Threw(msg) => st.(isLoading := false, error := Some("Failed to load data: " + msg))
    case Fetched(list) =>
      st.(alerts := list, summary := ReconcileSummary(list, fromServer),
          threatTypes := stats, network := window,
          lastUpdated := Some(now), error := None, isLoading := false)
  }

  /** `handleRefresh` (EnhancedDashboard.jsx:347-368): like the mount path but
      leaves the per-type counters and the buffers alone. */
  function Refresh(st: State, snapshot: Fetch<seq<Alert>>, fromServer: Fetch<Summary>, now: string): (r: State)
    ensures !r.isLoading && r.isConnected == st.isConnected
    ensures r.threatTypes == st.threatTypes && r.network == st.network
    ensures snapshot.Threw? ==>
              && r.error == Some("Failed to refresh: " + snapshot.message)
              && r.alerts == st.alerts && r.summary == st.summary
              && r.lastUpdated == st.lastUpdated
    ensures snapshot.Fetched? ==>
              && r.error == None && r.alerts == snapshot.value
              && r.summary == ReconcileSummary(snapshot.value, fromServer)
              && r.lastUpdated == Some(now)
  {
    match snapshot
    case Threw(msg) => st.(isLoading := false, error := Some("Failed to refresh: " + msg))
    case Fetched(list) =>
      st.(alerts := list, summary := ReconcileSummary(list, fromServer),
          lastUpdated := Some(now), error := None, isLoading := false)
  }

  /** After a refresh whose summary call threw, a live alert with an unseen id
      leaves exactly the snapshot plus that alert, with exact counters. */
  lemma RefreshThenFreshPush(st: State, list: seq<Alert>, msg: string, now: string,
                             a: Alert, timeLabel: string, sample: real, at: string)
    requires Truthy(a.id) && !ContainsId(list, a.id)
    ensures HandleNewAlert(Refresh(st, Fetched(list), Threw(msg), now), Some(a), timeLabel, sample, at).alerts
            == [a] + list
    ensures HandleNewAlert(Refresh(st, Fetched(list), Threw(msg), now), Some(a), timeLabel, sample, at).summary
            == Recompute([a] + list)
  {
    var mid := Refresh(st, Fetched(list), Threw(msg), now);
    FreshIdKeepsSummaryExact(mid, a, timeLabel, sample, at);
  }

  /** `handleConnectionChange` (EnhancedDashboard.jsx:202-205): only the
      connection flag changes. */
  function ConnectionChange(st: State, connected: bool): (r: State)
    ensures r.isConnected == connected
    ensures r.alerts == st.alerts && r.summary == st.summary && r.error == st.error
    ensures r.threatTypes == st.threatTypes && r.network == st.network
    ensures r.isLoading == st.isLoading && r.lastUpdated == st.lastUpdated
  {
    st.(isConnected := connected)
  }
}

=== FILE: endpoints.dfy ===
/** The server endpoints that change the alert store (backend/app.py): the
    detector and test endpoints store newest-first, record history and
    broadcast; the trained-model endpoints append at the end and then fail
    on a method the manager does not have. */
module Endpoints {
  import opened Basics
  import opened BackendAlerts
  import opened ConnectionManager

  /** The module-level state of the server: `alerts`, `alert_history` and
      `manager`. */
  datatype Backend = Backend(alerts: seq<Alert>, history: seq<Alert>, manager: Manager)

  /** The state invariant: the history is within its bound and the manager
      is valid. */
  predicate Valid(b: Backend) {
    |b.history| <= MaxHistory && ConnectionManager.Valid(b.manager)
  }

  const Start := Backend([], [], Empty)

  lemma StartValid()
    ensures Valid(Start)
  {
  }

  /* ---------------------------------------------------------------------- */
  /* broadcast_alert                                                          */
  /* ---------------------------------------------------------------------- */

  datatype AlertBroadcast = AlertBroadcast(ok: bool, sent: Option<Alert>, manager: Manager)

  /** `broadcast_alert` (app.py:197-228): a record that cannot be formatted
      makes it return `False` before anything is sent; otherwise the
      formatted record goes out to every open client and the result is
      `True`, whatever the sends did. */
  function BroadcastAlert(m: Manager, raw: RawAlert, failing: set<ClientId>): (r: AlertBroadcast)
    ensures r.ok <==> Format(raw).Some?
    ensures !r.ok ==> r.manager == m && r.sent.None?
    ensures r.ok ==> r.sent == Format(raw) && r.manager == BroadcastOutcome(m, failing).manager
  {
    match Format(raw)
    case None => AlertBroadcast(false, None, m)
    case Some(formatted) => AlertBroadcast(true, Some(formatted), BroadcastOutcome(m, failing).manager)
  }

  /** Broadcasting a stored record always succeeds and sends exactly that
      record. */
  lemma StoredAlertBroadcasts(m: Manager, a: Alert, failing: set<ClientId>)
    ensures BroadcastAlert(m, ToRaw(a), failing).ok
    ensures BroadcastAlert(m, ToRaw(a), failing).sent == Some(a)
  {
    FormatStoredRoundTrip(a);
  }

  /* ---------------------------------------------------------------------- */
  /* Storing alerts                                                           */
  /* ---------------------------------------------------------------------- */

  /** The store-and-broadcast tail shared by the detector endpoints and the
      test endpoint (app.py:284-288, 337-341, 376-379, 410-413, 448-451,
      485-488, 522-525, 578-582): newest first, into the bounded history,
      out to every client. */
  function RecordDetected(b: Backend, a: Alert, failing: set<ClientId>): (r: Backend)
    ensures r.alerts == InsertNewest(b.alerts, a)
    ensures r.history == HistoryAppend(b.history, a)
    ensures r.manager == BroadcastOutcome(b.manager, failing).manager
  {
    StoredAlertBroadcasts(b.manager, a, failing);
    var sent := BroadcastAlert(b.manager, ToRaw(a), failing);
    Backend(InsertNewest(b.alerts, a), HistoryAppend(b.history, a), sent.manager)
  }

  /** Storing a detected alert keeps the server state valid: the history
      stays within 1000 entries and the manager stays valid. */
  lemma RecordDetectedPreservesValid(b: Backend, a: Alert, failing: set<ClientId>)
    requires Valid(b)
    ensures Valid(RecordDetected(b, a, failing))
  {
    BroadcastPreservesValid(b.manager, failing);
  }

  /** After a detector stores an alert, it is the newest one, every earlier
      alert keeps its relative order one place further back, and the
      newest history entry is the same alert. */
  lemma RecordDetectedNewestFirst(b: Backend, a: Alert, failing: set<ClientId>)
    ensures RecordDetected(b, a, failing).alerts[0] == a
    ensures RecordDetected(b, a, failing).alerts[1..] == b.alerts
    ensures var h := RecordDetected(b, a, failing).history; h[|h| - 1] == a
  {
    assert InsertNewest(b.alerts, a)[1..] == b.alerts;
  }

  /** The record built by `create_test_alert` (app.py:563-576); the id and
      timestamp are the drawn uuid and the clock reading. */
  function TestAlert(id: string, now: string): (a: Alert)
    ensures a.id == id && a.timestamp == now
    ensures a.threatType == "Test Threat" && a.deviceId == "test-device" && a.confidence == 0.85
    ensures a.description == "This is a test alert created for development purposes"
    ensures a.severity == "medium" && a.status == "open" && a.detectionMethod == "test"
    ensures a.metrics == Some(map["test_metric" := "test_value"])
  {
    Alert(id, "Test Threat", "medium", now, "open", "test-device",
          "This is a test alert created for development purposes", "test", 0.85,
          Some(map["test_metric" := "test_value"]))
  }

  /** `create_test_alert` (app.py:560-584): the test record goes through the
      same store-and-broadcast path as a detected one. */
  function CreateTestAlert(b: Backend, id: string, now: string, failing: set<ClientId>): (r: Backend)
    ensures |r.alerts| == |b.alerts| + 1 && r.alerts[0] == TestAlert(id, now)
    ensures r.alerts[0].id == id && r.alerts[0].severity == "medium"
    ensures forall i :: 0 <= i < |b.alerts| ==> r.alerts[i + 1] == b.alerts[i]
    ensures r.history == HistoryAppend(b.history, TestAlert(id, now))
    ensures |r.history| <= MaxHistory
    ensures r.manager == BroadcastOutcome(b.manager, failing).manager
  {
    RecordDetected(b, TestAlert(id, now), failing)
  }

  /** The outcome of a trained-model request that found a threat. */
  datatype TrainedOutcome = TrainedOutcome(backend: Backend, failedWithServerError: bool)

  /** The threat branch of `windows10_detect` and `ml_detect`
      (app.py:677-681, 728-732): the alert is appended at the end, not put
      first and not recorded in the history; the following call to
      `manager.broadcast_alert` names no method of the manager, so the
      request ends in a server error after the alert is stored and before
      anything is sent. */
  function AppendTrained(b: Backend, a: Alert): (r: TrainedOutcome)
    ensures r.backend.alerts == AppendOldest(b.alerts, a)
    ensures r.backend.history == b.history && r.backend.manager == b.manager
    ensures r.failedWithServerError
  {
    TrainedOutcome(b.(alerts := AppendOldest(b.alerts, a)), true)
  }

  /** A trained-model alert is stored last, so the legacy view shows it only
      while fewer than a hundred alerts were stored before it. */
  lemma TrainedAlertInLegacyViewOnlyWhenFewAlerts(b: Backend, a: Alert)
    ensures var after := AppendTrained(b, a).backend.alerts;
            |b.alerts| < LegacyLimit ==> GetAlertsLegacy(after)[|b.alerts|] == a
    ensures |b.alerts| >= LegacyLimit ==> GetAlertsLegacy(AppendTrained(b, a).backend.alerts) == GetAlertsLegacy(b.alerts)
  {
    var after := AppendTrained(b, a).backend.alerts;
    if |b.alerts| >= LegacyLimit {
      assert after[..LegacyLimit] == b.alerts[..LegacyLimit];
    }
  }

  /** A detected alert always heads the legacy view. */
  lemma DetectedAlertHeadsLegacyView(b: Backend, a: Alert, failing: set<ClientId>)
    ensures GetAlertsLegacy(RecordDetected(b, a, failing).alerts)[0] == a
  {
  }

  /* ---------------------------------------------------------------------- */
  /* The WebSocket greeting                                                   */
  /* ---------------------------------------------------------------------- */

  const InitialBatchSize: nat := 50

  /** The alerts of the `initial` message sent on connection
      (app.py:773-777): the first fifty stored. */
  function InitialBatch(alerts: seq<Alert>): (r: seq<Alert>)
    ensures |r| == if |alerts| <= InitialBatchSize then |alerts| else InitialBatchSize
    ensures forall i :: 0 <= i < |r| ==> r[i] == alerts[i]
  {
    if |alerts| <= InitialBatchSize then alerts else alerts[..InitialBatchSize]
  }
}

=== FILE: server_summary.dfy ===
/** The dashboard summary the server computes from its alert store
    (`get_dashboard_summary`, backend/app.py:586-629): counts of all, open and
    open-critical alerts, per-method and per-threat-type tallies, and the
    integer security score. */
module ServerSummary {
  import opened Basics
  import opened BackendAlerts

  datatype DashboardSummary = DashboardSummary(
    totalAlerts: int,
    openAlerts: int,
    criticalAlerts: int,
    securityScore: int,
    detectionMethods: map<string, int>,
    threatTypes: map<string, int>,
    moduleStatus: string)

  /* ---------------------------------------------------------------------- */
  /* Counting                                                                 */
  /* ---------------------------------------------------------------------- */

  /** Open on the server means the status is exactly "open". */
  predicate IsOpen(a: Alert) {
    a.status == "open"
  }

  predicate IsOpenCritical(a: Alert) {
    a.severity == "critical" && a.status == "open"
  }

  /** Open alerts that are critical are in particular open, and every alert
      counted at all is in the store. */
  lemma CountsNested(alerts: seq<Alert>)
    ensures Count(alerts, IsOpenCritical) <= Count(alerts, IsOpen) <= |alerts|
  {
    CountMonotone(alerts, IsOpenCritical, IsOpen);
  }

  /** The key `detection_method` of an alert, as tallied. */
  function MethodKey(a: Alert): string {
    a.detectionMethod
  }

  /** The key `threat_type` of an alert, as tallied. */
  function ThreatTypeKey(a: Alert): string {
    a.threatType
  }

  /** A counter read with `dict.get(key, 0)`. */
  function Lookup(m: map<string, int>, k: string): int {
    if k in m then m[k] else 0
  }

  /** The counting loops of app.py:593-603: one `get(key, 0) + 1` per alert,
      in store order. */
  function TallyBy(m: map<string, int>, alerts: seq<Alert>, key: Alert -> string): (r: map<string, int>)
    ensures m.Keys <= r.Keys
    ensures forall i :: 0 <= i < |alerts| ==> key(alerts[i]) in r
    decreases |alerts|
  {
    if |alerts| == 0 then m else TallyBy(Bump(m, key(alerts[0])), alerts[1..], key)
  }

  /** Every alert adds exactly one to the tally, so the counters grow in total
      by the number of alerts. */
  lemma {:induction false} TallyAddsOnePerAlert(m: map<string, int>, alerts: seq<Alert>, key: Alert -> string)
    ensures MapSum(TallyBy(m, alerts, key)) == MapSum(m) + |alerts|
    decreases |alerts|
  {
    if |alerts| > 0 {
      MapSumBump(m, key(alerts[0]));
      TallyAddsOnePerAlert(Bump(m, key(alerts[0])), alerts[1..], key);
    }
  }

  /** Number of alerts whose key is `k`. */
  function CountWithKey(alerts: seq<Alert>, key: Alert -> string, k: string): nat
    decreases |alerts|
  {
    if |alerts| == 0 then 0
    else (if key(alerts[0]) == k then 1 else 0) + CountWithKey(alerts[1..], key, k)
  }

  /** The counter under `k` grows by the number of alerts whose key is `k`;
      the keys present afterwards are the old ones and the alerts' keys. */
  lemma {:induction false} TallyCountsKey(m: map<string, int>, alerts: seq<Alert>, key: Alert -> string, k: string)
    ensures Lookup(TallyBy(m, alerts, key), k) == Lookup(m, k) + CountWithKey(alerts, key, k)
    ensures k in TallyBy(m, alerts, key) <==> k in m || exists i :: 0 <= i < |alerts| && key(alerts[i]) == k
    decreases |alerts|
  {
    if |alerts| > 0 {
      var next := Bump(m, key(alerts[0]));
      TallyCountsKey(next, alerts[1..], key, k);
      if k in TallyBy(m, alerts, key) && !(k in m) && key(alerts[0]) != k {
        var i :| 0 <= i < |alerts[1..]| && key(alerts[1..][i]) == k;
        assert key(alerts[i + 1]) == k;
      }
      if exists i :: 0 <= i < |alerts| && key(alerts[i]) == k {
        var i :| 0 <= i < |alerts| && key(alerts[i]) == k;
        if i > 0 {
          assert key(alerts[1..][i - 1]) == k;
        }
      }
    }
  }

  /* ---------------------------------------------------------------------- */
  /* Security score                                                           */
  /* ---------------------------------------------------------------------- */

  /** `severity_weights` (app.py:606); any other severity weighs nothing. */
  function Weight(severity: string): nat {
    if severity == "low" then 1
    else if severity == "medium" then 3
    else if severity == "high" then 5
    else if severity == "critical" then 10
    else 0
  }

  predicate OpenLow(a: Alert) { a.severity == "low" && a.status == "open" }
  predicate OpenMedium(a: Alert) { a.severity == "medium" && a.status == "open" }
  predicate OpenHigh(a: Alert) { a.severity == "high" && a.status == "open" }

  /** `weighted_sum` (app.py:607-612): the four open-severity counts, each
      times its weight. Closed alerts weigh nothing. */
  function WeightedSum(alerts: seq<Alert>): (r: nat)
    ensures Count(alerts, IsOpen) == 0 ==> r == 0
  {
    CountMonotone(alerts, OpenLow, IsOpen);
    CountMonotone(alerts, OpenMedium, IsOpen);
    CountMonotone(alerts, OpenHigh, IsOpen);
    CountMonotone(alerts, IsOpenCritical, IsOpen);
    Count(alerts, OpenLow) * 1 + Count(alerts, OpenMedium) * 3
      + Count(alerts, OpenHigh) * 5 + Count(alerts, IsOpenCritical) * 10
  }

  /** What one alert adds to the weighted sum: its severity's weight when it
      is open, nothing otherwise. */
  function AlertWeight(a: Alert): nat {
    if a.status == "open" then Weight(a.severity) else 0
  }

  /** Reference reading of the weighted sum, alert by alert. */
  function TotalWeight(alerts: seq<Alert>): nat
    decreases |alerts|
  {
    if |alerts| == 0 then 0 else AlertWeight(alerts[0]) + TotalWeight(alerts[1..])
  }

  lemma {:induction false} TotalWeightConcat(s: seq<Alert>, t: seq<Alert>)
    ensures TotalWeight(s + t) == TotalWeight(s) + TotalWeight(t)
    decreases |s|
  {
    if |s| > 0 {
      assert (s + t)[1..] == s[1..] + t;
      TotalWeightConcat(s[1..], t);
    } else {
      assert s + t == t;
    }
  }

  /** The per-severity counting of the source and the per-alert reading
      agree on every store. */
  lemma {:induction false} WeightedSumIsPerAlert(alerts: seq<Alert>)
    ensures WeightedSum(alerts) == TotalWeight(alerts)
    decreases |alerts|
  {
    if |alerts| > 0 {
      var a, rest := alerts[0], alerts[1..];
      assert alerts == [a] + rest;
      CountPrepend(a, rest, OpenLow);
      CountPrepend(a, rest, OpenMedium);
      CountPrepend(a, rest, OpenHigh);
      CountPrepend(a, rest, IsOpenCritical);
      WeightedSumIsPerAlert(rest);
    }
  }

  /** `max(0, 100 - min(weighted_sum * 2, 100))` (app.py:613). */
  function Score(w: nat): (r: int)
    ensures 0 <= r <= 100
    ensures r == 0 <==> w >= 50
    ensures r == 100 <==> w == 0
    ensures w < 50 ==> r == 100 - 2 * w
  {
    var penalty := if w * 2 <= 100 then w * 2 else 100;
    if 100 - penalty >= 0 then 100 - penalty else 0
  }

  /** A larger weighted sum never gives a better score. */
  lemma ScoreAntitone(w1: nat, w2: nat)
    requires w1 <= w2
    ensures Score(w2) <= Score(w1)
  {
  }

  /** What one more alert adds to the weighted sum, wherever it is stored. */
  lemma WeightOfOneMore(alerts: seq<Alert>, a: Alert)
    ensures WeightedSum(InsertNewest(alerts, a)) == AlertWeight(a) + WeightedSum(alerts)
    ensures WeightedSum(AppendOldest(alerts, a)) == WeightedSum(alerts) + AlertWeight(a)
  {
    WeightedSumIsPerAlert(alerts);
    WeightedSumIsPerAlert([a] + alerts);
    WeightedSumIsPerAlert(alerts + [a]);
    TotalWeightConcat([a], alerts);
    TotalWeightConcat(alerts, [a]);
    assert [a][1..] == [];
  }

  /** Storing one more alert, newest-first or at the end, never raises the
      security score, and leaves it as it was when the alert is not open or
      its severity carries no weight. */
  lemma AddingAlertNeverRaisesScore(alerts: seq<Alert>, a: Alert)
    ensures Score(WeightedSum(InsertNewest(alerts, a))) <= Score(WeightedSum(alerts))
    ensures Score(WeightedSum(AppendOldest(alerts, a))) <= Score(WeightedSum(alerts))
    ensures AlertWeight(a) == 0 ==> Score(WeightedSum(InsertNewest(alerts, a))) == Score(WeightedSum(alerts))
  {
    WeightOfOneMore(alerts, a);
    ScoreAntitone(WeightedSum(alerts), WeightedSum(InsertNewest(alerts, a)));
    ScoreAntitone(WeightedSum(alerts), WeightedSum(AppendOldest(alerts, a)));
  }

  /* ---------------------------------------------------------------------- */
  /* The summary                                                              */
  /* ---------------------------------------------------------------------- */

  /** The status reported for each enhanced module. */
  function ModuleStatus(modulesAvailable: bool): string {
    if modulesAvailable then "active" else "inactive"
  }

  /** `get_dashboard_summary` (app.py:586-629). */
  function Summarize(alerts: seq<Alert>, modulesAvailable: bool): (r: DashboardSummary)
    ensures r.totalAlerts == |alerts|
    ensures 0 <= r.criticalAlerts <= r.openAlerts <= r.totalAlerts
    ensures r.openAlerts == Count(alerts, IsOpen)
    ensures r.criticalAlerts == Count(alerts, IsOpenCritical)
    ensures 0 <= r.securityScore <= 100
    ensures r.securityScore == 0 <==> TotalWeight(alerts) >= 50
    ensures r.securityScore == Score(TotalWeight(alerts))
    ensures MapSum(r.detectionMethods) == |alerts| && MapSum(r.threatTypes) == |alerts|
    ensures forall k :: Lookup(r.detectionMethods, k) == CountWithKey(alerts, MethodKey, k)
    ensures forall k :: Lookup(r.threatTypes, k) == CountWithKey(alerts, ThreatTypeKey, k)
    ensures r.moduleStatus == (if modulesAvailable then "active" else "inactive")
  {
    forall k | true
      ensures Lookup(TallyBy(map[], alerts, MethodKey), k) == CountWithKey(alerts, MethodKey, k)
      ensures Lookup(TallyBy(map[], alerts, ThreatTypeKey), k) == CountWithKey(alerts, ThreatTypeKey, k)
    {
      TallyAccountsForEveryAlert(alerts, MethodKey, k);
      TallyAccountsForEveryAlert(alerts, ThreatTypeKey, k);
    }
    CountsNested(alerts);
    WeightedSumIsPerAlert(alerts);
    TallyAccountsForEveryAlert(alerts, MethodKey, "");
    TallyAccountsForEveryAlert(alerts, ThreatTypeKey, "");
    DashboardSummary(
      |alerts|,
      Count(alerts, IsOpen),
      Count(alerts, IsOpenCritical),
      Score(WeightedSum(alerts)),
      TallyBy(map[], alerts, MethodKey),
      TallyBy(map[], alerts, ThreatTypeKey),
      ModuleStatus(modulesAvailable))
  }

  /** Each tally accounts for every stored alert exactly once: its counters
      add up to the total, the counter under a key is the number of alerts
      carrying that key, and a key is present only if some alert carries it. */
  lemma TallyAccountsForEveryAlert(alerts: seq<Alert>, key: Alert -> string, k: string)
    ensures MapSum(TallyBy(map[], alerts, key)) == |alerts|
    ensures Lookup(TallyBy(map[], alerts, key), k) == CountWithKey(alerts, key, k)
    ensures k in TallyBy(map[], alerts, key) <==> exists i :: 0 <= i < |alerts| && key(alerts[i]) == k
  {
    var empty: map<string, int> := map[];
    assert MapSum(empty) == 0;
    TallyAddsOnePerAlert(empty, alerts, key);
    TallyCountsKey(empty, alerts, key, k);
  }

  /** The two tallies of the summary each add up to the number of stored
      alerts. */
  lemma SummaryTalliesSumToTotal(alerts: seq<Alert>, modulesAvailable: bool)
    ensures MapSum(Summarize(alerts, modulesAvailable).detectionMethods) == |alerts|
    ensures MapSum(Summarize(alerts, modulesAvailable).threatTypes) == |alerts|
  {
    TallyAccountsForEveryAlert(alerts, MethodKey, "");
    TallyAccountsForEveryAlert(alerts, ThreatTypeKey, "");
  }

  /** The score the summary endpoint reports never rises when an alert is
      stored, newest-first or at the end. */
  lemma ReportedScoreNeverRises(alerts: seq<Alert>, a: Alert, modulesAvailable: bool)
    ensures Summarize(InsertNewest(alerts, a), modulesAvailable).securityScore
            <= Summarize(alerts, modulesAvailable).securityScore
    ensures Summarize(AppendOldest(alerts, a), modulesAvailable).securityScore
            <= Summarize(alerts, modulesAvailable).securityScore
  {
    AddingAlertNeverRaisesScore(alerts, a);
    WeightedSumIsPerAlert(alerts);
    WeightedSumIsPerAlert(InsertNewest(alerts, a));
    WeightedSumIsPerAlert(AppendOldest(alerts, a));
  }
}

=== FILE: sidebar.dfy ===
/** Navigation highlighting in the sidebar (frontend/src/components/Sidebar.jsx):
    which of the fixed navigation entries is marked active for the current
    location. */
module Sidebar {

  /** A navigation entry: its route and the text it shows (`label` in the
      source; that word is reserved in Dafny). */
  datatype NavItem = NavItem(path: string, text: string)

  const Root := "/"

  /** The navigation table (Sidebar.jsx:21-26). */
  const NavItems: seq<NavItem> := [
    NavItem("/", "Overview"),
    NavItem("/dashboard", "Dashboard"),
    NavItem("/detection-modules", "Detection"),
    NavItem("/test-suite", "Test Suite")
  ]

  /** `String.prototype.startsWith`. */
  predicate StartsWith(s: string, prefix: string) {
    |prefix| <= |s| && s[..|prefix|] == prefix
  }

  /** `isActive` (Sidebar.jsx:28-33): the root entry needs an exact match;
      every other entry is active when the location starts with its path,
      character by character, with no regard for `/` boundaries. */
  predicate IsActive(pathname: string, path: string) {
    if path == Root then pathname == Root else StartsWith(pathname, path)
  }

  /** The root entry is active exactly at "/". */
  lemma RootActiveOnlyAtRoot(pathname: string)
    ensures IsActive(pathname, Root) <==> pathname == "/"
  {
  }

  /** A non-root entry is active exactly when the location agrees with its
      path on every one of the path's characters. */
  lemma NonRootActiveIffPrefix(pathname: string, path: string)
    requires path != Root
    ensures IsActive(pathname, path)
            <==> |path| <= |pathname| && forall i :: 0 <= i < |path| ==> pathname[i] == path[i]
  {
    if |path| <= |pathname| && forall i :: 0 <= i < |path| ==> pathname[i] == path[i] {
      assert pathname[..|path|] == path;
    }
  }

  /** The match is on characters, not on path segments. */
  lemma PrefixNotSegment()
    ensures IsActive("/dashboardX", "/dashboard")
    ensures IsActive("/dashboard/alerts", "/dashboard")
    ensures !IsActive("/dashboard", "/")
  {
    assert "/dashboardX"[..|"/dashboard"|] == "/dashboard";
    assert "/dashboard/alerts"[..|"/dashboard"|] == "/dashboard";
  }

  /** Where two different non-root navigation paths first part ways: they
      differ at this index, which both of them have. */
  function Divergence(i: nat, j: nat): (k: nat)
    requires 1 <= i < |NavItems| && 1 <= j < |NavItems| && i != j
    ensures k < |NavItems[i].path| && k < |NavItems[j].path|
    ensures NavItems[i].path[k] != NavItems[j].path[k]
  {
    if (i == 1 && j == 2) || (i == 2 && j == 1) then 2 else 1
  }

  /** No non-root navigation path is a prefix of another navigation path
      (the root path "/" is a prefix of all of them, but it only ever
      matches exactly). */
  lemma NavPathsPrefixFree()
    ensures forall i, j :: 1 <= i < |NavItems| && 0 <= j < |NavItems| && i != j
              ==> !StartsWith(NavItems[j].path, NavItems[i].path)
  {
    forall i, j | 1 <= i < |NavItems| && 0 <= j < |NavItems| && i != j
      ensures !StartsWith(NavItems[j].path, NavItems[i].path)
    {
      if j != 0 {
        var k := Divergence(i, j);
        if StartsWith(NavItems[j].path, NavItems[i].path) {
          PrefixesAgree(NavItems[j].path, NavItems[i].path, NavItems[j].path, k);
          assert false;
        }
      }
    }
  }

  /** Two prefixes of the same string agree wherever both are defined. */
  lemma PrefixesAgree(s: string, p: string, q: string, k: nat)
    requires StartsWith(s, p) && StartsWith(s, q) && k < |p| && k < |q|
    ensures p[k] == q[k]
  {
    assert p[k] == s[..|p|][k] == s[k];
    assert q[k] == s[..|q|][k] == s[k];
  }

  /** The entries marked active for a location. */
  function ActiveItems(pathname: string): (r: seq<NavItem>)
    ensures |r| <= 1
    ensures forall i :: 0 <= i < |r| ==> r[i] in NavItems && IsActive(pathname, r[i].path)
    ensures forall i :: 0 <= i < |NavItems| && IsActive(pathname, NavItems[i].path) ==> NavItems[i] in r
  {
    var hits := if IsActive(pathname, NavItems[0].path) then [NavItems[0]] else [];
    var hits := hits + if IsActive(pathname, NavItems[1].path) then [NavItems[1]] else [];
    var hits := hits + if IsActive(pathname, NavItems[2].path) then [NavItems[2]] else [];
    var hits := hits + if IsActive(pathname, NavItems[3].path) then [NavItems[3]] else [];
    AtMostOneActive(pathname);
    hits
  }

  /** At most one navigation entry is active for any location. */
  lemma AtMostOneActive(pathname: string)
    ensures forall i, j :: 0 <= i < j < |NavItems|
              ==> !(IsActive(pathname, NavItems[i].path) && IsActive(pathname, NavItems[j].path))
  {
    forall i, j | 0 <= i < j < |NavItems|
      ensures !(IsActive(pathname, NavItems[i].path) && IsActive(pathname, NavItems[j].path))
    {
      if IsActive(pathname, NavItems[i].path) && IsActive(pathname, NavItems[j].path) {
        if i != 0 {
          var k := Divergence(i, j);
          PrefixesAgree(pathname, NavItems[i].path, NavItems[j].path, k);
          assert false;
        }
      }
    }
  }
}

=== FILE: summary_aggregator.dfy ===
/** The dashboard's summary counters: recomputed from an alert list
    (EnhancedDashboard `updateSummaryFromAlerts`) or advanced by one alert's
    delta (`updateSummaryForAlert`). */
module SummaryAggregator {
  import opened Basics
  import opened ClientAlert

  datatype Summary = Summary(
    total: int,
    open: int,
    resolved: int,
    critical: int,
    high: int,
    medium: int,
    low: int)

  /** The summary the dashboard starts with. */
  const Zero := Summary(0, 0, 0, 0, 0, 0, 0)

  /** Only the exact status "resolved" counts as resolved; any other status,
      including a missing one, counts as open. */
  predicate IsResolved(a: Alert) { a.status == Some("resolved") }
  predicate IsOpen(a: Alert) { !IsResolved(a) }

  predicate IsCritical(a: Alert) { a.severity == Some("critical") }
  predicate IsHigh(a: Alert) { a.severity == Some("high") }
  predicate IsMedium(a: Alert) { a.severity == Some("medium") }
  predicate IsLow(a: Alert) { a.severity == Some("low") }

  /** The severity falls into one of the four buckets; anything else falls
      through the `default` arm of the source's switch. */
  predicate HasKnownSeverity(a: Alert) {
    IsCritical(a) || IsHigh(a) || IsMedium(a) || IsLow(a)
  }

  function SeverityBuckets(s: Summary): int {
    s.critical + s.high + s.medium + s.low
  }

  function Plus(s: Summary, t: Summary): Summary {
    Summary(s.total + t.total, s.open + t.open, s.resolved + t.resolved,
            s.critical + t.critical, s.high + t.high, s.medium + t.medium, s.low + t.low)
  }

  lemma PlusZero(s: Summary)
    ensures Plus(Zero, s) == s
  {
  }

  lemma PlusCommutes(s: Summary, t: Summary)
    ensures Plus(s, t) == Plus(t, s)
  {
  }

  /** The four severity buckets together count exactly the alerts whose
      severity is recognised. */
  lemma {:induction false} BucketsCountKnown(alerts: seq<Alert>)
    ensures Count(alerts, IsCritical) + Count(alerts, IsHigh) + Count(alerts, IsMedium)
            + Count(alerts, IsLow) == Count(alerts, HasKnownSeverity)
  {
    if |alerts| > 0 {
      BucketsCountKnown(alerts[1..]);
    }
  }

  /** Recomputes every counter from the list (EnhancedDashboard.jsx:289-317):
      one status bucket per alert, and at most one severity bucket. */
  function Recompute(alerts: seq<Alert>): (r: Summary)
    ensures r.total == |alerts|
    ensures r.open + r.resolved == r.total
    ensures r.resolved == Count(alerts, IsResolved)
  {
    CountComplement(alerts, IsResolved, IsOpen);
    Summary(|alerts|, Count(alerts, IsOpen), Count(alerts, IsResolved),
            Count(alerts, IsCritical), Count(alerts, IsHigh),
            Count(alerts, IsMedium), Count(alerts, IsLow))
  }

  /** The severity buckets never exceed the total, and fill it exactly when
      every alert has one of the four recognised severities. */
  lemma SeverityCoverage(alerts: seq<Alert>)
    ensures 0 <= SeverityBuckets(Recompute(alerts)) <= Recompute(alerts).total
    ensures SeverityBuckets(Recompute(alerts)) == Recompute(alerts).total
            <==> forall i :: 0 <= i < |alerts| ==> HasKnownSeverity(alerts[i])
  {
    BucketsCountKnown(alerts);
  }

  function Indicator(b: bool): int { if b then 1 else 0 }

  /** What a single alert adds to each counter. */
  function Contribution(a: Alert): Summary {
    Summary(1, Indicator(IsOpen(a)), Indicator(IsResolved(a)),
            Indicator(IsCritical(a)), Indicator(IsHigh(a)),
            Indicator(IsMedium(a)), Indicator(IsLow(a)))
  }

  /** Recomputing a list with one more alert in front adds that alert's
      contribution. */
  lemma RecomputePrepend(a: Alert, alerts: seq<Alert>)
    ensures Recompute([a] + alerts) == Plus(Contribution(a), Recompute(alerts))
  {
    var after, grown := Recompute([a] + alerts), Plus(Contribution(a), Recompute(alerts));
    PrependStatus(a, alerts);
    PrependSeverity(a, alerts);
    SameCounters(after, grown);
  }

  /** The status counters of `RecomputePrepend`. */
  lemma PrependStatus(a: Alert, alerts: seq<Alert>)
    ensures var after, grown := Recompute([a] + alerts), Plus(Contribution(a), Recompute(alerts));
            after.total == grown.total && after.open == grown.open && after.resolved == grown.resolved
  {
    CountPrepend(a, alerts, IsOpen);
    CountPrepend(a, alerts, IsResolved);
  }

  /** The severity counters of `RecomputePrepend`, one at a time. */
  lemma PrependSeverity(a: Alert, alerts: seq<Alert>)
    ensures var after, grown := Recompute([a] + alerts), Plus(Contribution(a), Recompute(alerts));
            && after.critical == grown.critical && after.high == grown.high
            && after.medium == grown.medium && after.low == grown.low
  {
    CountPrependIndicator(a, alerts, IsCritical);
    CountPrependIndicator(a, alerts, IsHigh);
    CountPrependIndicator(a, alerts, IsMedium);
    CountPrependIndicator(a, alerts, IsLow);
  }

  /** `CountPrepend` in terms of `Indicator`, stated for an arbitrary
      predicate so that the severity tests are not unfolded against each
      other. */
  lemma CountPrependIndicator(a: Alert, alerts: seq<Alert>, p: Alert -> bool)
    ensures Count([a] + alerts, p) == Indicator(p(a)) + Count(alerts, p)
  {
    CountPrepend(a, alerts, p);
  }

  /** Two summaries with the same seven counters are the same summary. */
  lemma SameCounters(x: Summary, y: Summary)
    requires x.total == y.total && x.open == y.open && x.resolved == y.resolved
    requires x.critical == y.critical && x.high == y.high && x.medium == y.medium && x.low == y.low
    ensures x == y
  {
  }

  /** Advances the counters by one alert (EnhancedDashboard.jsx:320-344).
      With `isNew` false the summary is returned unchanged. */
  function ApplyDelta(prev: Summary, a: Alert, isNew: bool): (r: Summary)
    ensures !isNew ==> r == prev
    ensures isNew ==> r == Plus(prev, Contribution(a))
  {
    if !isNew then prev
    else
      var afterStatus :=
        if a.status == Some("resolved") then prev.(total := prev.total + 1, resolved := prev.resolved + 1)
        else prev.(total := prev.total + 1, open := prev.open + 1);
      match a.severity
      case Some("critical") => afterStatus.(critical := afterStatus.critical + 1)
      case Some("high") => afterStatus.(high := afterStatus.high + 1)
      case Some("medium") => afterStatus.(medium := afterStatus.medium + 1)
      case Some("low") => afterStatus.(low := afterStatus.low + 1)
      case _ => afterStatus
  }

  /** One new alert adds one to the total and to exactly one status bucket,
      and to a severity bucket exactly when its severity is recognised. */
  lemma DeltaCounts(prev: Summary, a: Alert)
    ensures ApplyDelta(prev, a, true).total == prev.total + 1
    ensures ApplyDelta(prev, a, true).open + ApplyDelta(prev, a, true).resolved
            == prev.open + prev.resolved + 1
    ensures SeverityBuckets(ApplyDelta(prev, a, true))
            == SeverityBuckets(prev) + Indicator(HasKnownSeverity(a))
  {
  }

  /** Applies the delta of every alert of `alerts`, first to last. */
  function FoldDeltas(s: Summary, alerts: seq<Alert>): Summary
    decreases |alerts|
  {
    if |alerts| == 0 then s else FoldDeltas(ApplyDelta(s, alerts[0], true), alerts[1..])
  }

  /** The incremental and the recomputing strategies agree: folding the
      deltas of a list onto `s` adds exactly the recomputed counters. */
  lemma {:induction false} FoldIsPlusRecompute(s: Summary, alerts: seq<Alert>)
    ensures FoldDeltas(s, alerts) == Plus(s, Recompute(alerts))
    decreases |alerts|
  {
    if |alerts| == 0 {
      assert Recompute(alerts) == Zero;
    } else {
      var a, rest := alerts[0], alerts[1..];
      assert alerts == [a] + rest;
      calc {
        FoldDeltas(s, alerts);
        FoldDeltas(ApplyDelta(s, a, true), rest);
        FoldDeltas(Plus(s, Contribution(a)), rest);
        { FoldIsPlusRecompute(Plus(s, Contribution(a)), rest); }
        Plus(Plus(s, Contribution(a)), Recompute(rest));
        Plus(s, Plus(Contribution(a), Recompute(rest)));
        { RecomputePrepend(a, rest); }
        Plus(s, Recompute(alerts));
      }
    }
  }

  /** Starting from the zero summary, folding the deltas of a list yields
      exactly the summary recomputed from that list. */
  lemma {:induction false} FoldFromZeroIsRecompute(alerts: seq<Alert>)
    ensures FoldDeltas(Zero, alerts) == Recompute(alerts)
  {
    calc {
      FoldDeltas(Zero, alerts);
      { FoldIsPlusRecompute(Zero, alerts); }
      Plus(Zero, Recompute(alerts));
      { PlusZero(Recompute(alerts)); }
      Recompute(alerts);
    }
  }
}
